=== FILE: README.md ===
# Replay-project orchestration of wtfwt, modelled in Dafny

`wtfwt` sets up a local project that re-executes one block of a
Substrate chain. Given a WebSocket RPC endpoint and a block hash,
`Cmd::run` goes through these steps:

1. Validate the arguments.
2. Connect to the node.
3. Look up the target block's parent.
4. Download the raw block into `block-0x<hex>.raw`, unless that file is
   already there.
5. Run `try-runtime create-snapshot` at the parent, writing
   `snap-0x<hex>.raw`, unless that file is already there.
6. Lay out the `replay` crate: `Cargo.toml` and `src/lib.rs`, rendered
   from templates.
7. Move both artifacts into `replay`.
8. Download the runtime's `Cargo.lock` from GitHub into `replay`.

The model has four modules:

- `Basics`: bytes and `Option`.
- `Hex`: the `0x`-prefixed lower-case hex encoding used for file names and
  for `--at`, and its decoder.
- `Fs`: the working directory as a tree of directories and files, the
  invariant that it stays a tree, and the class `FileSystem`.
  `FileSystem`'s methods are the `std::fs` calls the tool makes:
  `write`, `create_dir`, `create_dir_all`, `remove_dir_all` and `rename`.
- `Replay`: the command, its errors, and every step of `Cmd::run` as a
  method over `FileSystem`.

The chain node, the SCALE encoder, the `try-runtime` subprocess, the
template renderer and the HTTP client are functions in the `Env` datatype.
Each call that leaves the process is returned, in order, as an `Effect`.
That lets the contracts say which calls a run made:

- a rejected command makes none;
- the calls stop at the failing step, and the last call is that step's
  own when it makes one;
- a cache hit fetches nothing for that artifact, and a miss fetches it;
- the only snapshot ever requested is of the parent block.

`Cmd::run` is modelled as two halves, which `Run` calls in turn:

- `FetchArtifacts` covers everything up to `create_snap`. It hands the two
  caching steps to `FillCache`.
- `InstallArtifacts` covers `setup_project` and what follows. It hands the
  moves and the lockfile to `MoveAndLock`.

Ghost reference functions state the outcome of each half from the state
it starts in:

- `FetchFailure`, `FetchEffects` and `FetchedFiles` give the fetch half's
  first failing step, its calls and its files.
- `InstallFailure`, `InstallEffects`, `InstalledFiles` and
  `InstalledDirs` do the same for the install half, tree included.
- `RunFailure`, `RunEffects`, `RunFiles` and `RunDirs` compose the two.

Each method's contract equates its result, its calls, its files and its
directories with these functions. Lemmas then
characterise the functions: when a run succeeds, what each failure
leaves behind, and how the calls follow the plan.

Points worth knowing about the code, all of which the model follows:

- The artifacts are moved into the project with `rename`, not copied.
  A successful run therefore empties the cache (`SuccessEmptiesCache`).
- `download_raw_block` concatenates the encoded extrinsics and then drops
  them. The file holds the encoded header alone.
- The lockfile body is written whatever the HTTP status code was.
- The cache file names contain the `0x` prefix: `block-0x<64 hex>.raw`.
- A hex argument that decodes to a length other than 32 bytes makes
  `H256::from_slice` panic. The model stops the run with the distinct
  value `WrongHashLength` instead.
- A failure after `setup_project` undoes nothing. A template that does not
  render leaves the half-built `replay`. A failed lockfile request leaves
  both artifacts already moved into it.
- The final "Failed to create project" check in `setup_project` can never
  fire. `SetupProject` proves that the directory exists at that point.

## Model

| member | source | states |
|---|---|---|
| Replay.ValidateArgs | src/main.rs:197-206 | Succeeds exactly when the RPC URL starts with `wss://` or `ws://` and the block starts with `0x`. The URL scheme is checked first: a bad scheme gives the ws-URL error and nothing else does. A good scheme with a bad block gives the block-hash error. |
| Replay.ValidateArgsExamples | src/main.rs:197-206 | An `http://` URL is refused. A block `1234` without `0x` is refused. `ws://` and `wss://` with a `0x` hash are accepted. |
| Replay.ParseBlockHash | src/main.rs:128-129 | Succeeds exactly when the argument hex-decodes to 32 bytes, and then yields those bytes. An argument that is not hex, or has an odd number of digits, gives "Invalid block hash". Hex of any other length gives `WrongHashLength`, the stand-in for the `H256::from_slice` panic. |
| Replay.CanonicalArgumentAccepted | src/main.rs:128-129 | `0x` followed by the lower-case hex of a hash passes validation and parses back to that hash. |
| Replay.AnyCaseArgumentAccepted | src/main.rs:128-129 | `0x` followed by the hash's digits in any mix of upper and lower case passes validation, parses to that hash, and so names the same raw-block file. |
| Replay.UpperCaseArgumentAccepted | src/main.rs:128-129 | The all-upper-case spelling of a hash parses to the same hash. |
| Replay.FileNamesCarryHash | src/main.rs:140-142 | The hex text inside `block-0x<hex>.raw` and `snap-0x<hex>.raw` decodes back to the hash it was made from. |
| Replay.SameBlockFileExactlyWhenSameDigits | src/main.rs:128-142 | Two `0x` block arguments that parse name the same raw-block file exactly when their digits differ at most in letter case. |
| Replay.FileNamesInjective | src/main.rs:142 | Distinct hashes give distinct raw-block names and distinct snapshot names. No raw-block name equals a snapshot name. |
| Replay.FindParentBlock | src/main.rs:126-136 | A hash that does not parse fails before any node call. Otherwise exactly one block lookup is made at the target. The result is the parent hash in the target's header, or an RPC error when the node has no such block. |
| Replay.ConcatenatedAppend | src/main.rs:153-156 | Concatenating the encodings of `xs + ys` is the concatenation of each part's result. |
| Replay.ConcatExtrinsics | src/main.rs:153-156 | The loop's buffer ends as the encodings of all extrinsics, concatenated in order. |
| Replay.ReplyError | src/main.rs:150-151 | A missing header or body gives "Block not found". A failed call gives the RPC error. Either leaves `replay` untouched. |
| Replay.DownloadRawBlock | src/main.rs:138-164 | A hash that does not parse fails without calls or changes. A cache hit returns the existing path with no fetch and no write. On a miss, the header is fetched, then the body. A missing or failed reply is an error with the files unchanged. Otherwise exactly the header's encoding is written to `block-0x<hex>.raw` and nothing else changes. A returned path always exists. |
| Replay.CreateSnap | src/main.rs:166-195 | A cache hit returns the existing path without running `try-runtime`. Otherwise exactly one `try-runtime` call is made, with `--uri <rpc> --at 0x<hex> snap-0x<hex>.raw`. The tool failing to start is an error. Whatever file it wrote stays in place. The result is that path only when the tool exited successfully and the file exists; otherwise it is "Failed to create snap". A returned path exists. |
| Replay.SetupProject | src/main.rs:90-124 | An existing `replay` without `--force` is refused and nothing changes. With `--force` the old tree is removed first; a `replay` that is not a directory makes that removal fail with nothing changed. Then `replay`, `replay/Cargo.toml`, `replay/src` and `replay/src/lib.rs` are created. Whatever the outcome, every file and directory outside `replay` stays as it was. A render failure leaves exactly the steps done so far. The existence check at the end never fails. |
| Replay.SetUpStagesOutside | src/main.rs:101-116 | Each state `setup_project` can stop in (after `create_dir`, after writing `Cargo.toml`, after writing `lib.rs`) agrees outside `replay` with the tree it started from. |
| Replay.DownloadLockfile | src/main.rs:78-88 | Exactly one HTTP GET of `https://raw.githubusercontent.com/<repo>/<rev>/Cargo.lock` is made. No response is an error that changes nothing. Otherwise the body is written to `<project>/Cargo.lock` whatever the status. That write succeeds exactly when the project is a directory. |
| Replay.BlockFileName | src/main.rs:142 | The raw-block cache name is 76 characters: `block-0x`, the 64 hex digits, `.raw`. |
| Replay.SnapFileName | src/main.rs:167-168 | The snapshot cache name is 75 characters: `snap-0x`, the 64 hex digits, `.raw`. |
| Replay.LockfileUrl | src/main.rs:79 | The lockfile URL is `https://raw.githubusercontent.com/`, the repository, `/`, the revision, then `/Cargo.lock`. |
| Replay.FillCache | src/main.rs:61-63 | Once the parent is known: the error is that of `download_raw_block` or else of `create_snap`, exactly as `CacheFailure` gives it. The calls are the header, then the body only if the header was found, then the snapshot only if the raw block is there. The files are exactly `CachedFiles`. On success the two paths are the target's raw-block name and the parent's snapshot name. |
| Replay.FetchArtifacts | src/main.rs:56-63 | The stage fails exactly when `FetchFailure` names a step, and with that step's error. The checks run in order: validation, connection, hash parse and parent lookup, header, body, then `try-runtime`. The calls are exactly `FetchEffects`: the plan cut off right after the failing call. The files are exactly `FetchedFiles`. Directories never change. A failed validation makes no call and changes no file. The calls follow the plan, snapshot only the parent, skip what is cached and fetch what is not. On success the two paths are the cache names, holding cached or freshly fetched bytes. |
| Replay.FetchEffectsFollowPlan | src/main.rs:56-63 | The fetch stage's calls are a prefix of its plan. They are the whole plan when the stage succeeds, or once the raw block is there. A raw block that is not cached is asked for once the stage reaches the download. |
| Replay.FetchEffectsRespectCache | src/main.rs:56-63 | The fetch stage makes no call for invalid arguments and starts with the connection otherwise. Every snapshot it requests is of the parent. A cached raw block means no header or body call. A cached snapshot means no `try-runtime` call. |
| Replay.FetchedFilesFacts | src/main.rs:138-195 | The fetch stage keeps every existing file with its bytes. It adds files only under the two cache names. Nothing else changes. When it succeeds it reached the snapshot, and both cache entries exist. Then a raw block that was not cached holds the header's encoding. A snapshot that was not cached holds what a successful `try-runtime` wrote. |
| Replay.OnlySrcInProject | src/main.rs:102-112 | In the tree `setup_project` leaves, `src` is the only directory inside `replay`, so every other name there is free for a file. |
| Replay.MoveAndLock | src/main.rs:66-73 | Inside the tree `setup_project` left, the two moves succeed exactly when both artifacts are files. A failed move is an I/O error with no call made. After both moves, the lockfile GET is the one call, and only a missing response fails, with the HTTP error. The new files are exactly the old ones with the moves applied, plus `Cargo.lock` when the request answered. No directory changes. Nothing outside `replay` changes but the two artifacts. |
| Replay.InstallFailureOnceSetUp | src/main.rs:64-73 | Once `setup_project` has succeeded, only a move (an artifact that is not a file) or the lockfile request can still fail. The directories are then `replay` and `replay/src`. The files are the set-up tree, with the moves and the lockfile applied as far as they got. |
| Replay.CacheNamesApart | src/main.rs:67-71 | Both cache files are top-level names other than `replay` and `src`. Moved into `replay`, they clash with each other and with none of `Cargo.toml`, `src/lib.rs` and `Cargo.lock`. |
| Replay.FileName | src/main.rs:67 | A top-level file's name is the file itself. |
| Replay.FileNameJoinsParent | src/main.rs:67-70 | Joining a path's file name to its parent gives the path back. |
| Replay.InstallRefusalKeepsTree | src/main.rs:90-98 | An existing `replay` without `--force`, or a forced `replay` that is not a directory, fails the install stage. Every file and directory stays as it was. |
| Replay.RenderFailureLeaves | src/main.rs:101-116 | A template that does not render leaves the new `replay` without `src/lib.rs` or `Cargo.lock`. Both artifacts stay in the working directory with their bytes. |
| Replay.MoveFailureLeaves | src/main.rs:66-71 | Once set-up succeeded, a failed move leaves no lockfile, and the raw block not moved. A snapshot that was there has been moved into `replay` with its bytes. |
| Replay.LockfileFailureLeaves | src/main.rs:73 | A failed lockfile request leaves both artifacts inside `replay` with their bytes and gone from the working directory. The rendered files stay, and there is no `Cargo.lock`. |
| Replay.InstalledOutside | src/main.rs:64-73 | Whichever step fails, the install stage changes nothing outside `replay` except the two artifacts. |
| Replay.InstalledAssembled | src/main.rs:64-73 | An install stage where no step fails, started from fetched artifacts, leaves the finished project (`Assembled`). |
| Replay.InstallOutcome | src/main.rs:64-73 | The install stage's only call is the lockfile GET. It fails with "Project already exists" exactly when `replay` exists without `--force`. Such a refusal changes nothing. Nothing outside `replay` changes except the artifacts. When no step fails, the project is finished. |
| Replay.InstallIntoProject | src/main.rs:66-73 | After a successful set-up, the moves and the lockfile give exactly the install stage's error, calls, files and directories. |
| Replay.InstallArtifacts | src/main.rs:64-73 | The stage fails exactly when `InstallFailure` names a step, and with that step's error. In order: an existing `replay` without `--force`, a forced `replay` that is not a directory, either template failing to render, an artifact that is not a file, a missing lockfile response. `replay` existing without `--force` holds exactly when the result is "Project already exists". The calls are exactly `InstallEffects`: the lockfile GET, made only when every earlier step succeeded. The files and directories are exactly `InstalledFiles` and `InstalledDirs`, whichever step failed; nothing done is rolled back. A refusal makes no call and changes nothing. Nothing outside `replay` changes except the two artifacts. On success the project is complete, as `Run` states. |
| Replay.RunEffectsFollowPlan | src/main.rs:56-76 | A run's calls are a prefix of the plan, and the whole plan when it succeeds. A failure that keeps `replay` stops before the lockfile. The calls start with the connection. They snapshot only the parent and skip cached artifacts. They fetch uncached artifacts once the run gets that far. |
| Replay.RunStopsAtFirstFailure | src/main.rs:56-63 | Each failing step of the fetch stage ends the run with that step's own error. The calls stop there, ending with that step's call when it makes one. The cases are: invalid arguments (no calls), no connection (`[Connect]`), a block argument that does not parse (`[Connect]` only), an unknown target (`[Connect, GetBlock]`), a header failure, a body failure, and a `try-runtime` that did not start or did not succeed (the whole fetch plan). In all but the last case no file changes. |
| Replay.RunSucceedsExactly | src/main.rs:56-76 | A run succeeds exactly when all of these hold: the arguments are valid; the node answers and knows the target; the raw block is cached or its header and body are found; the snapshot is cached or `try-runtime` exits successfully having written it; `replay` is absent, or forced and a directory; both templates render; the lockfile request answers; and neither cache entry is a directory. |
| Replay.NoForceKeepsProject | src/main.rs:92-97 | Without `--force`, a run that finds `replay` fails whatever else happens. Its error is one raised before `setup_project` touches anything. |
| Replay.Run | src/main.rs:56-76 | The run fails exactly when `RunFailure` names a step, and with that step's error. The calls are exactly `RunEffects`. The files and directories are exactly `RunFiles` and `RunDirs`, for every outcome. Validation comes first: a rejected command makes no call and changes nothing. The calls follow the plan: connect, look up the target, header and body unless cached, the parent's snapshot unless cached, then the lockfile GET. A successful run makes all of them. A failure before the project is touched changes no directory. It keeps every existing file with its bytes, and its files are exactly `FetchedFiles`. Without `--force`, an existing `replay` always ends in such a failure. Whatever happens, nothing outside `replay` changes but the two cache files. After a successful run, `replay` holds exactly two directories, `replay` and `replay/src`. It holds exactly five files: the rendered `Cargo.toml` and `src/lib.rs`, the fetched `Cargo.lock`, and both artifacts under their original names. The raw block holds the cached bytes or the header encoding. The snapshot holds the cached bytes or what a successful `try-runtime` wrote. Neither artifact remains in the working directory. |
| Replay.SetUpOutside | src/main.rs:90-124 | Setting up the project leaves every top-level file other than `replay` as it was. |
| Replay.MovedIntoProject | src/main.rs:66-73 | After set-up, the two renames and the lockfile write, each artifact's bytes sit under `replay/` with its own name and are gone from the working directory. The three written files hold what was written. |
| Replay.AssembledFromSteps | src/main.rs:64-85 | Fetched artifacts, a fresh project, the two moves and the lockfile together give the finished project that `Run` promises. |
| Replay.SuccessEmptiesCache | src/main.rs:66-71 | After a successful run neither cache file is in the working directory. The fetch plan of a later run for the same block therefore contains the header fetch and the snapshot call. By `Run`'s contract the later run makes them once it gets that far. |
| Hex.Encode | src/main.rs:142 | Each byte becomes two hex digits. |
| Hex.Bytes2Hex | src/main.rs:167 | The text starts with the prefix and then has two digits per byte. |
| Hex.Hex2Bytes | src/main.rs:128 | A successful decode yields one byte per two digits after the optional `0x`. |
| Hex.DecodeEncode | src/main.rs:140-142 | Decoding the hex digits of any byte string gives the bytes back. |
| Hex.RoundTrip | src/main.rs:140-142 | Decoding `0x`-prefixed hex of any bytes gives the bytes back. |
| Hex.EncodeIsLowerCase | src/main.rs:142 | Every character of the encoding is one of the 16 lower-case hex digits. |
| Hex.DecodeIgnoresCase | src/main.rs:128 | Two digit strings whose digits stand for the same values decode to the same result, whatever the case of the letters. |
| Hex.AnyCaseRoundTrip | src/main.rs:128 | `0x` followed by the digits of any bytes, in any mix of cases, decodes back to those bytes. |
| Hex.DecodedAreSameDigits | src/main.rs:128 | Any digit text that decodes is the encoding of the bytes it yields, up to the case of the letters. |
| Hex.SameBytesExactlyWhenSameDigits | src/main.rs:128 | Two `0x` texts that decode give the same bytes exactly when their digits differ at most in letter case. |
| Hex.EncodeInjective | src/main.rs:142 | Distinct byte strings have distinct encodings. |
| Fs.AncestorsOfChild | src/main.rs:102 | In a well-formed tree, a path whose parent is a directory has every ancestor as a directory. |
| Fs.NothingBelowMissing | src/main.rs:92-102 | Nothing lies below a path that exists neither as a file nor as a directory. |
| Fs.OutsideWellFormed | src/main.rs:95 | Removing a subtree leaves a well-formed tree. |
| Fs.FileSystem.Exists | src/main.rs:92 | In a well-formed tree, any existing path other than the working directory hangs from a directory. |
| Fs.FileSystem.IsDir | src/main.rs:118 | A directory exists, and in a well-formed tree it is not also a file. |
| Fs.FileSystem.Write | src/main.rs:105 | `write` succeeds exactly when the parent is a directory and the path is not. Only that one file is created or replaced. |
| Fs.FileSystem.CreateDir | src/main.rs:102 | `create_dir` succeeds exactly when the path does not exist and its parent is a directory. It adds that one directory. |
| Fs.FileSystem.CreateDirAll | src/main.rs:112 | `create_dir_all` succeeds exactly when no prefix of the path is a file. It adds the path and all its ancestors as directories. |
| Fs.FileSystem.RemoveDirAll | src/main.rs:95 | `remove_dir_all` succeeds exactly on a directory. It removes everything at or below it and nothing else. |
| Fs.FileSystem.Rename | src/main.rs:68 | `rename` of a file succeeds exactly when the source is a file, the target's parent is a directory and the target is not a directory. The bytes then move from the source path to the target path. |

## Left out

- The subxt client (`from_url`, `blocks().at`, `block_header`, `block_body`) is the `Node` oracle. Connecting is a yes/no. Replies are found, missing or failed. Retries, timeouts and subxt's error texts are not modelled.
- The `runtime_version` log line in `find_parent_block` is left out. It only logs.
- SCALE `encode()` of headers and extrinsics is an opaque function to bytes.
- The `try-runtime` subprocess is an oracle: it either did not start, or it exited with a success flag and possibly a written file. Its stdout and stderr are ignored, as in the source.
- reqwest is an oracle from URL to an optional body. The status code is not part of the model because the source does not inspect it.
- The sailfish templates in `src/render.rs` are opaque render functions that may fail. The contents of `cargo.toml.stpl` and `lib.rs.stpl` are not part of this model.
- `init_log`, every `log::` call and the tokio runtime are left out. They do not affect the outcome.
- Hex.Hex2Bytes: follows `array_bytes::hex2bytes` as it is used here. It strips an optional `0x`, rejects odd lengths and accepts either case. The `array_bytes` crate is not part of this model.
- Replay.ParseBlockHash: a decoded length other than 32 panics in `H256::from_slice`. The model reports it as the error value `WrongHashLength` rather than an abort.
- File-system failures the tree does not decide are left out: permissions, a full disk, I/O errors. So are symbolic links. Where the tree makes a call succeed, the model treats it as succeeding.
- Fs.FileSystem.Rename: only renaming a file is modelled. A cache entry that is a directory makes the model's `rename` fail with `IoFailed`, though the real call would move the directory. `RunSucceedsExactly` therefore lists "neither cache entry is a directory" among the conditions for success.
- Concurrent runs are not modelled. Neither is the non-atomic check-then-write of the cache, which the single-threaded tool does not guard.

=== FILE: basics.dfy ===
/** Values shared by every part of the model: bytes and optional values. */
module Basics {

  /** One octet, as Rust's `u8`. */
  type Byte = x: int | 0 <= x < 256

  /** A byte buffer: file contents, encodings, hashes. */
  type Bytes = seq<Byte>

  datatype Option<+T> = None | Some(value: T)
}

=== FILE: fs.dfy ===
/**
 * The working directory as the tool sees it through `std::fs` and
 * `std::path::Path`: a tree of directories and files.  Only the failures the
 * tree itself decides are modelled (a missing parent, a directory in the
 * way of a file, a file in the way of a directory).
 */
module Fs {
  import opened Basics

  /** A path relative to the working directory, one component per element; [] is the working directory. */
  type Path = seq<string>

  function Parent(p: Path): Path
    requires |p| > 0
  {
    p[..|p| - 1]
  }

  /** The working directory is a directory; so is every member of `dirs`. */
  predicate IsDirIn(dirs: set<Path>, p: Path)
  {
    p == [] || p in dirs
  }

  /** Every directory on the way from the working directory down to `p` exists. */
  ghost predicate AncestorsAreDirs(dirs: set<Path>, p: Path)
  {
    forall i | 0 < i < |p| :: p[..i] in dirs
  }

  /**
   * Holds of every path.  The tree invariant below is stated for named
   * paths only, so that a proof applies it to the paths it names and the
   * verifier does not apply it to every path in sight.
   */
  ghost predicate Named(p: Path)
  {
    true
  }

  /** Files and directories form a tree hanging from the working directory. */
  ghost predicate WellFormed(files: map<Path, Bytes>, dirs: set<Path>)
  {
    (forall p {:trigger Named(p)} | Named(p) && p in files :: |p| > 0 && p !in dirs && AncestorsAreDirs(dirs, p)) &&
    (forall d {:trigger Named(d)} | Named(d) && d in dirs :: |d| > 0 && AncestorsAreDirs(dirs, d))
  }

  /** A path whose parent is a directory of a well-formed tree has all its ancestors there. */
  lemma AncestorsOfChild(files: map<Path, Bytes>, dirs: set<Path>, p: Path)
    requires WellFormed(files, dirs)
    requires |p| > 0 && IsDirIn(dirs, Parent(p))
    ensures AncestorsAreDirs(dirs, p)
  {
    assert Named(Parent(p));
    forall i | 0 < i < |p|
      ensures p[..i] in dirs
    {
      if i < |p| - 1 {
        assert p[..i] == Parent(p)[..i];
      }
    }
  }

  /** The files left once everything at or below `root` is gone. */
  function FilesOutside(files: map<Path, Bytes>, root: Path): map<Path, Bytes>
  {
    map q | q in files && !(root <= q) :: files[q]
  }

  /** The directories left once everything at or below `root` is gone. */
  function DirsOutside(dirs: set<Path>, root: Path): set<Path>
  {
    set d | d in dirs && !(root <= d)
  }

  /** The members of `paths` at or below `root`. */
  function Below(paths: set<Path>, root: Path): set<Path>
  {
    set q | q in paths && root <= q
  }

  /** Changing a file at or below `root`, or one of `names`, leaves the rest of the files as they were. */
  lemma OutsideUpdate(files: map<Path, Bytes>, root: Path, names: set<Path>, k: Path, v: Bytes)
    requires root <= k || k in names
    ensures FilesOutside(files[k := v] - names, root) == FilesOutside(files - names, root)
  {
  }

  /** Removing a file at or below `root`, or one of `names`, leaves the rest of the files as they were. */
  lemma OutsideRemove(files: map<Path, Bytes>, root: Path, names: set<Path>, k: Path)
    requires root <= k || k in names
    ensures FilesOutside((files - {k}) - names, root) == FilesOutside(files - names, root)
  {
  }

  /** Moving a file between paths at or below `root`, or among `names`, leaves the rest of the files as they were. */
  lemma OutsideMoved(files: map<Path, Bytes>, root: Path, names: set<Path>, from: Path, to: Path)
    requires from in files
    requires root <= from || from in names
    requires root <= to || to in names
    ensures FilesOutside(Moved(files, from, to) - names, root) == FilesOutside(files - names, root)
  {
    OutsideUpdate(files - {from}, root, names, to, files[from]);
    OutsideRemove(files, root, names, from);
  }

  /** Pruning `root` twice is pruning it once, whatever else is set aside. */
  lemma OutsideTwice(files: map<Path, Bytes>, root: Path, names: set<Path>)
    ensures FilesOutside(FilesOutside(files, root) - names, root) == FilesOutside(files - names, root)
  {
  }

  /** Directories added at or below `root` do not show outside it. */
  lemma DirsOutsideAdded(dirs: set<Path>, root: Path, added: set<Path>)
    requires forall d | d in added :: root <= d
    ensures DirsOutside(DirsOutside(dirs, root) + added, root) == DirsOutside(dirs, root)
  {
  }

  /** The directories `create_dir_all(p)` ends up with: `p` and every ancestor of it. */
  function Ancestry(p: Path): set<Path>
  {
    set i | 1 <= i <= |p| :: p[..i]
  }

  /** The files after the file at `from` has been moved to `to`. */
  function Moved(files: map<Path, Bytes>, from: Path, to: Path): map<Path, Bytes>
    requires from in files
  {
    (files - {from})[to := files[from]]
  }

  /** In a well-formed tree nothing lies below a path that does not exist. */
  lemma NothingBelowMissing(files: map<Path, Bytes>, dirs: set<Path>, root: Path, q: Path)
    requires WellFormed(files, dirs)
    requires |root| > 0 && root !in files && root !in dirs
    requires root <= q
    ensures q !in files && q !in dirs
  {
    assert Named(q);
    if q != root {
      assert |root| < |q| && q[..|root|] == root;
    }
  }

  /** Pruning a subtree away leaves a tree. */
  lemma OutsideWellFormed(files: map<Path, Bytes>, dirs: set<Path>, root: Path)
    requires WellFormed(files, dirs)
    ensures WellFormed(FilesOutside(files, root), DirsOutside(dirs, root))
  {
    var files', dirs' := FilesOutside(files, root), DirsOutside(dirs, root);
    forall p, i | (p in files' || p in dirs') && 0 < i < |p|
      ensures p[..i] in dirs'
    {
      assert Named(p);
      assert root <= p[..i] ==> root <= p;
    }
  }

  class FileSystem {
    var files: map<Path, Bytes>
    var dirs: set<Path>

    ghost predicate Valid()
      reads this
    {
      WellFormed(files, dirs)
    }

    constructor (files0: map<Path, Bytes>, dirs0: set<Path>)
      requires WellFormed(files0, dirs0)
      ensures Valid()
      ensures files == files0 && dirs == dirs0
    {
      files, dirs := files0, dirs0;
    }

    /** `Path::exists`: in a well-formed tree whatever exists hangs from a directory. */
    predicate Exists(p: Path): (b: bool)
      reads this
      ensures b && p != [] && Valid() ==> IsDirIn(dirs, Parent(p))
    {
      assert Named(p);
      p == [] || p in files || p in dirs
    }

    /** `Path::is_dir`: a directory exists, and in a well-formed tree it is not also a file. */
    predicate IsDir(p: Path): (b: bool)
      reads this
      ensures b ==> Exists(p)
      ensures b && Valid() ==> p !in files
    {
      assert Named(p);
      IsDirIn(dirs, p)
    }

    /** `std::fs::write`: create or truncate a file; fails when its parent is no directory or `p` is one. */
    method Write(p: Path, data: Bytes) returns (ok: bool)
      requires Valid()
      modifies this
      ensures Valid()
      ensures ok <==> |p| > 0 && old(IsDir(Parent(p))) && p !in old(dirs)
      ensures files == if ok then old(files)[p := data] else old(files)
      ensures dirs == old(dirs)
    {
      ok := |p| > 0 && IsDir(Parent(p)) && p !in dirs;
      if ok {
        AncestorsOfChild(files, dirs, p);
        files := files[p := data];
      }
    }

    /** `std::fs::create_dir`: fails when `p` exists or its parent is no directory. */
    method CreateDir(p: Path) returns (ok: bool)
      requires Valid()
      modifies this
      ensures Valid()
      ensures ok <==> |p| > 0 && !old(Exists(p)) && old(IsDir(Parent(p)))
      ensures files == old(files)
      ensures dirs == if ok then old(dirs) + {p} else old(dirs)
    {
      ok := |p| > 0 && !Exists(p) && IsDir(Parent(p));
      if ok {
        AncestorsOfChild(files, dirs, p);
        dirs := dirs + {p};
      }
    }

    /** `std::fs::create_dir_all`: create `p` and its missing ancestors; fails when one of them is a file. */
    method CreateDirAll(p: Path) returns (ok: bool)
      requires Valid()
      modifies this
      ensures Valid()
      ensures ok <==> forall i | 1 <= i <= |p| :: p[..i] !in old(files)
      ensures files == old(files)
      ensures dirs == if ok then old(dirs) + Ancestry(p) else old(dirs)
    {
      ok := forall i | 1 <= i <= |p| :: p[..i] !in files;
      if ok {
        forall d, j | d in Ancestry(p) && 0 < j < |d|
          ensures d[..j] in Ancestry(p)
        {
          var i :| 1 <= i <= |p| && d == p[..i];
          assert d[..j] == p[..j];
        }
        dirs := dirs + Ancestry(p);
      }
    }

    /** `std::fs::remove_dir_all`: delete a directory and everything below it; fails unless `p` is a directory. */
    method RemoveDirAll(p: Path) returns (ok: bool)
      requires Valid()
      modifies this
      ensures Valid()
      ensures ok <==> p in old(dirs)
      ensures files == if ok then FilesOutside(old(files), p) else old(files)
      ensures dirs == if ok then DirsOutside(old(dirs), p) else old(dirs)
    {
      ok := p in dirs;
      if ok {
        OutsideWellFormed(files, dirs, p);
        files, dirs := FilesOutside(files, p), DirsOutside(dirs, p);
      }
    }

    /**
     * `std::fs::rename` of a file: it disappears from `from` and appears,
     * with the same contents, at `to` (replacing a file there); fails when
     * `from` is no file, the parent of `to` is no directory or `to` is one.
     */
    method Rename(from: Path, to: Path) returns (ok: bool)
      requires Valid()
      modifies this
      ensures Valid()
      ensures ok <==> from in old(files) && |to| > 0 && old(IsDir(Parent(to))) && to !in old(dirs)
      ensures files == if ok then Moved(old(files), from, to) else old(files)
      ensures dirs == old(dirs)
    {
      ok := from in files && |to| > 0 && IsDir(Parent(to)) && to !in dirs;
      if ok {
        AncestorsOfChild(files, dirs, to);
        files := Moved(files, from, to);
      }
    }
  }
}

=== FILE: hex.dfy ===
/**
 * Hex text as the `array_bytes` crate produces and reads it: `bytes2hex`
 * writes two lower-case digits per byte after a caller-chosen prefix, and
 * `hex2bytes` drops a leading "0x" and accepts digits of either case.
 */
module Hex {
  import opened Basics

  /** The digits `bytes2hex` writes, in nibble order. */
  const LowerDigits: string := "0123456789abcdef"

  /** The lower-case digit for one nibble. */
  function Digit(n: int): (c: char)
    requires 0 <= n < 16
    ensures c == LowerDigits[n]
    ensures DigitValue(c) == Some(n)
  {
    if n < 10 then (48 + n) as char else (87 + n) as char
  }

  /** The value of one ASCII hex digit of either case, or None for any other character. */
  function DigitValue(c: char): (r: Option<int>)
    ensures r.Some? ==> 0 <= r.value < 16
  {
    if '0' <= c <= '9' then Some(c as int - 48)
    else if 'a' <= c <= 'f' then Some(c as int - 87)
    else if 'A' <= c <= 'F' then Some(c as int - 55)
    else None
  }

  /** The digits of `bytes`, high nibble first, without any prefix. */
  function Encode(bytes: Bytes): (s: string)
    ensures |s| == 2 * |bytes|
  {
    if bytes == [] then []
    else [Digit(bytes[0] / 16), Digit(bytes[0] % 16)] + Encode(bytes[1..])
  }

  /** `array_bytes::bytes2hex(prefix, bytes)`. */
  function Bytes2Hex(prefix: string, bytes: Bytes): (s: string)
    ensures prefix <= s && |s| == |prefix| + 2 * |bytes|
  {
    prefix + Encode(bytes)
  }

  /** Pairs of digits back to bytes; None as soon as a character is not a hex digit. */
  function DecodePairs(s: string): (r: Option<Bytes>)
    requires |s| % 2 == 0
    ensures r.Some? ==> 2 * |r.value| == |s|
  {
    if s == [] then Some([])
    else
      match (DigitValue(s[0]), DigitValue(s[1]), DecodePairs(s[2..]))
      case (Some(hi), Some(lo), Some(rest)) => Some([16 * hi + lo] + rest)
      case _ => None
  }

  /** `array_bytes::hex2bytes`: strip "0x", refuse an odd number of digits, decode. */
  function Hex2Bytes(s: string): (r: Option<Bytes>)
    ensures r.Some? ==> 2 * |r.value| == if "0x" <= s then |s| - 2 else |s|
  {
    var digits := if "0x" <= s then s[2..] else s;
    if |digits| % 2 != 0 then None else DecodePairs(digits)
  }

  /** Decoding undoes encoding. */
  lemma {:induction false} DecodeEncode(bytes: Bytes)
    ensures DecodePairs(Encode(bytes)) == Some(bytes)
  {
    if bytes != [] {
      var hi, lo := bytes[0] / 16, bytes[0] % 16;
      var rest := Encode(bytes[1..]);
      var s := [Digit(hi), Digit(lo)] + rest;
      assert s == Encode(bytes);
      assert s[0] == Digit(hi) && s[1] == Digit(lo) && s[2..] == rest;
      DecodeEncode(bytes[1..]);
      assert DecodePairs(s) == Some([16 * hi + lo] + bytes[1..]);
      assert [16 * hi + lo] + bytes[1..] == bytes;
    }
  }

  /** `hex2bytes` reads back exactly what `bytes2hex` with the "0x" prefix wrote. */
  lemma RoundTrip(bytes: Bytes)
    ensures Hex2Bytes(Bytes2Hex("0x", bytes)) == Some(bytes)
  {
    var s := Bytes2Hex("0x", bytes);
    assert "0x" <= s && s[2..] == Encode(bytes);
    DecodeEncode(bytes);
  }

  /** Every digit `bytes2hex` writes is a lower-case one, whatever the case of the text it was parsed from. */
  lemma {:induction false} EncodeIsLowerCase(bytes: Bytes, i: int)
    requires 0 <= i < |Encode(bytes)|
    ensures Encode(bytes)[i] in LowerDigits
  {
    var hi, lo := bytes[0] / 16, bytes[0] % 16;
    assert Encode(bytes) == [Digit(hi), Digit(lo)] + Encode(bytes[1..]);
    if i >= 2 {
      EncodeIsLowerCase(bytes[1..], i - 2);
    }
  }

  /** Two digit strings that agree, digit by digit, in the value each digit stands for. */
  ghost predicate SameDigits(s: string, t: string)
  {
    |s| == |t| && forall i | 0 <= i < |s| :: DigitValue(s[i]) == DigitValue(t[i])
  }

  /** The same text with the letters `a`-`f` written as `A`-`F`. */
  function UpperCase(s: string): (u: string)
    ensures SameDigits(u, s)
  {
    seq(|s|, i requires 0 <= i < |s| => if 'a' <= s[i] <= 'f' then (s[i] as int - 32) as char else s[i])
  }

  /** Decoding looks only at what each digit stands for, so the case of the letters does not matter. */
  lemma {:induction false} DecodeIgnoresCase(s: string, t: string)
    requires |s| % 2 == 0 && SameDigits(s, t)
    ensures DecodePairs(s) == DecodePairs(t)
  {
    if s != [] {
      assert SameDigits(s[2..], t[2..]) by {
        forall i | 0 <= i < |s| - 2
          ensures DigitValue(s[2..][i]) == DigitValue(t[2..][i])
        {
          assert s[2..][i] == s[i + 2] && t[2..][i] == t[i + 2];
        }
      }
      DecodeIgnoresCase(s[2..], t[2..]);
      assert DigitValue(s[0]) == DigitValue(t[0]) && DigitValue(s[1]) == DigitValue(t[1]);
    }
  }

  /** `hex2bytes` reads "0x" followed by the digits of `bytes` in any mix of cases back as `bytes`. */
  lemma AnyCaseRoundTrip(bytes: Bytes, digits: string)
    requires SameDigits(digits, Encode(bytes))
    ensures Hex2Bytes("0x" + digits) == Some(bytes)
  {
    assert ("0x" + digits)[2..] == digits;
    DecodeIgnoresCase(digits, Encode(bytes));
    DecodeEncode(bytes);
  }

  /** Whatever `DecodePairs` accepts is the encoding of what it returns, up to the case of the letters. */
  lemma {:induction false} DecodedAreSameDigits(s: string, bytes: Bytes)
    requires |s| % 2 == 0 && DecodePairs(s) == Some(bytes)
    ensures SameDigits(s, Encode(bytes))
  {
    if s != [] {
      var hi, lo := DigitValue(s[0]).value, DigitValue(s[1]).value;
      var rest := DecodePairs(s[2..]).value;
      assert bytes == [16 * hi + lo] + rest;
      DecodedAreSameDigits(s[2..], rest);
      assert bytes[0] / 16 == hi && bytes[0] % 16 == lo && bytes[1..] == rest;
      var e := Encode(bytes);
      assert e == [Digit(hi), Digit(lo)] + Encode(rest);
      forall i | 0 <= i < |s|
        ensures DigitValue(s[i]) == DigitValue(e[i])
      {
        if i >= 2 {
          assert s[i] == s[2..][i - 2] && e[i] == Encode(rest)[i - 2];
        }
      }
    }
  }

  /**
   * `hex2bytes` identifies two `0x`-prefixed texts exactly when their digits
   * differ at most in the case of the letters.
   */
  lemma SameBytesExactlyWhenSameDigits(s: string, t: string)
    requires Hex2Bytes("0x" + s).Some? && Hex2Bytes("0x" + t).Some?
    ensures Hex2Bytes("0x" + s) == Hex2Bytes("0x" + t) <==> SameDigits(s, t)
  {
    assert ("0x" + s)[2..] == s && ("0x" + t)[2..] == t;
    if Hex2Bytes("0x" + s) == Hex2Bytes("0x" + t) {
      var bytes := Hex2Bytes("0x" + s).value;
      DecodedAreSameDigits(s, bytes);
      DecodedAreSameDigits(t, bytes);
    }
    if SameDigits(s, t) {
      DecodeIgnoresCase(s, t);
    }
  }

  /** Distinct byte strings have distinct digits. */
  lemma EncodeInjective(a: Bytes, b: Bytes)
    requires Encode(a) == Encode(b)
    ensures a == b
  {
    DecodeEncode(a);
    DecodeEncode(b);
  }
}

=== FILE: replay.dfy ===
/**
 * The replay-project workflow of `Cmd::run` (src/main.rs): validate the
 * arguments, resolve the parent of the target block, fetch the raw block
 * (cached as `block-0x<hex>.raw`), snapshot the parent's state with
 * `try-runtime` (cached as `snap-0x<hex>.raw`), lay out the `replay`
 * project, move both artifacts into it and fetch the lockfile.
 *
 * The chain node, the SCALE encoder, the `try-runtime` subprocess, the HTTP
 * client and the templates are collaborators the model only observes through
 * `Env`.  Every call that leaves the process is reported, in order, as an
 * `Effect`.
 */
module Replay {
  import opened Basics
  import Hex
  import opened Fs

  /** `subxt::utils::H256`. */
  type Hash = b: Bytes | |b| == 32 witness seq(32, _ => 0)

  /** The command line (`struct Cmd`). */
  datatype Cmd = Cmd(
    rpc: string,
    block: string,
    runtimeName: string,
    sourceRepo: string,
    sourceRev: string,
    force: bool)

  /** Why a run stops. */
  datatype Error =
    | NeedWsUrl         // "Need wss or ws RPC url"
    | BlockNotHash      // "Block argument must be a block hash starting with 0x"
    | ConnectFailed     // `OnlineClient::from_url` failed
    | InvalidBlockHash  // "Invalid block hash": the block argument is not hex
    | WrongHashLength   // not an error value: `H256::from_slice` panics and the process aborts
    | RpcFailed         // a subxt call failed
    | BlockNotFound     // "Block not found"
    | ToolNotStarted    // `Command::output` could not run `try-runtime`
    | SnapFailed        // "Failed to create snap"
    | ProjectExists     // "Project already exists at: ..."
    | RenderFailed      // a template failed to render
    | IoFailed          // a `std::fs` call failed
    | HttpFailed        // the lockfile request failed

  datatype Result<+T> = Ok(value: T) | Err(error: Error)

  /** A block header; only the parent hash is looked at, the other fields stay opaque. */
  datatype Header = Header(parentHash: Hash, rest: Bytes)

  /** What a node's backend answers for a hash: the item, "no such block" or a failed call. */
  datatype Reply<T> = Found(value: T) | Missing | Failed

  /** The chain node behind the RPC URL. */
  datatype Node = Node(
    reachable: bool,                      // `OnlineClient::from_url` succeeds
    blockAt: Hash -> Option<Header>,      // `api.blocks().at(hash)`
    header: Hash -> Reply<Header>,        // `api.backend().block_header(hash)`
    body: Hash -> Reply<seq<Bytes>>)      // `api.backend().block_body(hash)`: the raw extrinsics

  /** How a `try-runtime` run ended, and the file it left at its output path, if any. */
  datatype ToolRun = NotStarted | Exited(success: bool, wrote: Option<Bytes>)

  /** Everything outside the process the workflow depends on. */
  datatype Env = Env(
    node: Node,
    encodeHeader: Header -> Bytes,                           // `header.encode()`
    encodeExtrinsic: Bytes -> Bytes,                         // `extrinsic.encode()`
    tryRuntime: (string, string, string) -> ToolRun,         // uri, at, output file name
    renderCargoToml: (string, string, string) -> Option<Bytes>,
    renderLibRs: (Path, Path) -> Option<Bytes>,              // snapshot path, raw block path
    httpGet: string -> Option<Bytes>)                        // `reqwest::get(url)` then `.text()`

  /** A call that leaves the process. */
  datatype Effect =
    | Connect(url: string)
    | GetBlock(hash: Hash)
    | GetHeader(hash: Hash)
    | GetBody(hash: Hash)
    | SnapshotTool(uri: string, at: string, output: string)
    | HttpGet(url: string)

  /** The project directory and the files the workflow puts in it. */
  const Project: Path := ["replay"]
  const CargoToml: Path := ["replay", "Cargo.toml"]
  const SrcDir: Path := ["replay", "src"]
  const LibRs: Path := ["replay", "src", "lib.rs"]
  const CargoLock: Path := ["replay", "Cargo.lock"]

  // ---------------------------------------------------------------------
  // Arguments and file names

  /** `Cmd::validate_args`. */
  function ValidateArgs(cmd: Cmd): (r: Result<()>)
    ensures r.Ok? <==> ("wss://" <= cmd.rpc || "ws://" <= cmd.rpc) && "0x" <= cmd.block
    ensures !("wss://" <= cmd.rpc || "ws://" <= cmd.rpc) ==> r == Err(NeedWsUrl)
    ensures ("wss://" <= cmd.rpc || "ws://" <= cmd.rpc) && !("0x" <= cmd.block) ==> r == Err(BlockNotHash)
  {
    if !("wss://" <= cmd.rpc) && !("ws://" <= cmd.rpc) then Err(NeedWsUrl)
    else if !("0x" <= cmd.block) then Err(BlockNotHash)
    else Ok(())
  }

  /** `hex2bytes(&self.block)` followed by `H256::from_slice`. */
  function ParseBlockHash(block: string): (r: Result<Hash>)
    ensures r.Ok? <==> Hex.Hex2Bytes(block).Some? && |Hex.Hex2Bytes(block).value| == 32
    ensures r.Ok? ==> Hex.Hex2Bytes(block) == Some(r.value)
    ensures Hex.Hex2Bytes(block).None? ==> r == Err(InvalidBlockHash)
    ensures Hex.Hex2Bytes(block).Some? && |Hex.Hex2Bytes(block).value| != 32 ==> r == Err(WrongHashLength)
  {
    match Hex.Hex2Bytes(block)
    case None => Err(InvalidBlockHash)
    case Some(bytes) => if |bytes| == 32 then Ok(bytes) else Err(WrongHashLength)
  }

  /** The cache file of a raw block: `block-0x<hex>.raw`. */
  function BlockFileName(hash: Hash): (name: string)
    ensures |name| == 76 && name[..8] == "block-0x" && name[72..] == ".raw"
  {
    "block-" + Hex.Bytes2Hex("0x", hash) + ".raw"
  }

  /** The cache file of a state snapshot: `snap-0x<hex>.raw`. */
  function SnapFileName(hash: Hash): (name: string)
    ensures |name| == 75 && name[..7] == "snap-0x" && name[71..] == ".raw"
  {
    "snap-" + Hex.Bytes2Hex("0x", hash) + ".raw"
  }

  /** The hex text inside either file name reads back as the hash, so both names are injective. */
  lemma FileNamesCarryHash(hash: Hash)
    ensures Hex.Hex2Bytes(BlockFileName(hash)[6..72]) == Some(hash)
    ensures Hex.Hex2Bytes(SnapFileName(hash)[5..71]) == Some(hash)
  {
    var hex := Hex.Bytes2Hex("0x", hash);
    assert BlockFileName(hash)[6..72] == hex;
    assert SnapFileName(hash)[5..71] == hex;
    Hex.RoundTrip(hash);
  }

  /** Distinct hashes never share a cache file, and a block file is never a snapshot file. */
  lemma FileNamesInjective(a: Hash, b: Hash)
    ensures BlockFileName(a) == BlockFileName(b) ==> a == b
    ensures SnapFileName(a) == SnapFileName(b) ==> a == b
    ensures BlockFileName(a) != SnapFileName(b)
  {
    FileNamesCarryHash(a);
    FileNamesCarryHash(b);
    assert BlockFileName(a)[0] == 'b' && SnapFileName(b)[0] == 's';
  }

  /** A `0x`-prefixed argument of 64 lower-case digits passes validation and parses to its hash. */
  lemma CanonicalArgumentAccepted(cmd: Cmd, hash: Hash)
    requires "wss://" <= cmd.rpc || "ws://" <= cmd.rpc
    requires cmd.block == "0x" + Hex.Encode(hash)
    ensures ValidateArgs(cmd).Ok?
    ensures ParseBlockHash(cmd.block) == Ok(hash)
  {
    Hex.RoundTrip(hash);
  }

  /**
   * The case of the hex letters does not matter: an argument whose digits
   * stand for the same values as the lower-case encoding of `hash` parses to
   * `hash`, and so names the same raw-block file.
   */
  lemma AnyCaseArgumentAccepted(cmd: Cmd, hash: Hash, digits: string)
    requires "wss://" <= cmd.rpc || "ws://" <= cmd.rpc
    requires Hex.SameDigits(digits, Hex.Encode(hash))
    requires cmd.block == "0x" + digits
    ensures ValidateArgs(cmd).Ok?
    ensures ParseBlockHash(cmd.block) == Ok(hash)
    ensures BlockFileName(ParseBlockHash(cmd.block).value) == BlockFileName(hash)
  {
    Hex.AnyCaseRoundTrip(hash, digits);
  }

  /** In particular, the all-upper-case spelling of a hash parses to the same hash. */
  lemma UpperCaseArgumentAccepted(hash: Hash)
    ensures ParseBlockHash("0x" + Hex.UpperCase(Hex.Encode(hash))) == Ok(hash)
  {
    Hex.AnyCaseRoundTrip(hash, Hex.UpperCase(Hex.Encode(hash)));
  }

  /**
   * Two `0x`-prefixed block arguments that parse name the same raw-block
   * file exactly when their digits differ at most in the case of the letters.
   */
  lemma SameBlockFileExactlyWhenSameDigits(d: string, e: string)
    requires ParseBlockHash("0x" + d).Ok? && ParseBlockHash("0x" + e).Ok?
    ensures BlockFileName(ParseBlockHash("0x" + d).value) == BlockFileName(ParseBlockHash("0x" + e).value) <==> Hex.SameDigits(d, e)
  {
    FileNamesInjective(ParseBlockHash("0x" + d).value, ParseBlockHash("0x" + e).value);
    Hex.SameBytesExactlyWhenSameDigits(d, e);
  }

  /** The command lines the tool is meant to accept and refuse. */
  lemma ValidateArgsExamples(hash: Hash)
    ensures ValidateArgs(Cmd("http://127.0.0.1:9944", "0x" + Hex.Encode(hash), "", "", "", false)) == Err(NeedWsUrl)
    ensures ValidateArgs(Cmd("ws://127.0.0.1:9944", "1234", "", "", "", false)) == Err(BlockNotHash)
    ensures ValidateArgs(Cmd("ws://127.0.0.1:9944", "0x" + Hex.Encode(hash), "", "", "", false)).Ok?
    ensures ValidateArgs(Cmd("wss://rpc.example", "0x" + Hex.Encode(hash), "", "", "", true)).Ok?
  {
    assert "http://127.0.0.1:9944"[0] == 'h';
    assert "1234"[0] == '1';
  }

  // ---------------------------------------------------------------------
  // The steps of the workflow

  /** `find_parent_block`: the parent hash recorded in the target block's header. */
  method FindParentBlock(cmd: Cmd, node: Node) returns (r: Result<Hash>, effects: seq<Effect>)
    ensures ParseBlockHash(cmd.block).Err? ==> r == Err(ParseBlockHash(cmd.block).error) && effects == []
    ensures ParseBlockHash(cmd.block).Ok? ==>
      var target := ParseBlockHash(cmd.block).value;
      effects == [GetBlock(target)] &&
      r == match node.blockAt(target)
           case Some(header) => Ok(header.parentHash)
           case None => Err(RpcFailed)
  {
    effects := [];
    var parsed := ParseBlockHash(cmd.block);
    if parsed.Err? {
      return Err(parsed.error), effects;
    }
    effects := [GetBlock(parsed.value)];
    var block := node.blockAt(parsed.value);
    if block.None? {
      return Err(RpcFailed), effects;
    }
    r := Ok(block.value.parentHash);
  }

  /** The encodings of `extrinsics`, concatenated in chain order. */
  function Concatenated(extrinsics: seq<Bytes>, encode: Bytes -> Bytes): Bytes
  {
    if extrinsics == [] then []
    else Concatenated(extrinsics[..|extrinsics| - 1], encode) + encode(extrinsics[|extrinsics| - 1])
  }

  /** Concatenation keeps the order of the extrinsics: the encoding of a split list is the two halves' in turn. */
  lemma {:induction false} ConcatenatedAppend(xs: seq<Bytes>, ys: seq<Bytes>, encode: Bytes -> Bytes)
    ensures Concatenated(xs + ys, encode) == Concatenated(xs, encode) + Concatenated(ys, encode)
    decreases |ys|
  {
    if ys != [] {
      var last := ys[|ys| - 1];
      assert (xs + ys)[..|xs + ys| - 1] == xs + ys[..|ys| - 1];
      ConcatenatedAppend(xs, ys[..|ys| - 1], encode);
    } else {
      assert xs + ys == xs;
    }
  }

  /** The extrinsic loop of `download_raw_block`: `raw_extrinsics.extend(extrinsic.encode())` for each. */
  method ConcatExtrinsics(extrinsics: seq<Bytes>, encode: Bytes -> Bytes) returns (raw: Bytes)
    ensures raw == Concatenated(extrinsics, encode)
  {
    raw := [];
    for i := 0 to |extrinsics|
      invariant raw == Concatenated(extrinsics[..i], encode)
    {
      assert extrinsics[..i + 1][..i] == extrinsics[..i];
      raw := raw + encode(extrinsics[i]);
    }
    assert extrinsics[..|extrinsics|] == extrinsics;
  }

  /**
   * The error `?` propagates for a backend reply that carries no item: "Block
   * not found" for a missing block, the call's own error for a failed one.
   * Either is raised before `replay` is touched.
   */
  function ReplyError<T>(reply: Reply<T>): (e: Error)
    ensures e == BlockNotFound <==> reply.Missing?
    ensures e != BlockNotFound ==> e == RpcFailed
    ensures KeepsProject(e)
  {
    if reply.Missing? then BlockNotFound else RpcFailed
  }

  /**
   * `download_raw_block`: reuse `block-0x<hex>.raw` when it exists;
   * otherwise fetch header and body and write the header's encoding, and only
   * that, to the file.
   */
  method DownloadRawBlock(cmd: Cmd, env: Env, fs: FileSystem) returns (r: Result<Path>, effects: seq<Effect>)
    requires fs.Valid()
    modifies fs
    ensures fs.Valid()
    ensures ParseBlockHash(cmd.block).Err? ==>
      r == Err(ParseBlockHash(cmd.block).error) && effects == [] && fs.files == old(fs.files) && fs.dirs == old(fs.dirs)
    // cache hit: no fetch, no write
    ensures ParseBlockHash(cmd.block).Ok? && old(fs.Exists([BlockFileName(ParseBlockHash(cmd.block).value)])) ==>
      r == Ok([BlockFileName(ParseBlockHash(cmd.block).value)]) && effects == [] && fs.files == old(fs.files) && fs.dirs == old(fs.dirs)
    // cache miss
    ensures ParseBlockHash(cmd.block).Ok? && !old(fs.Exists([BlockFileName(ParseBlockHash(cmd.block).value)])) ==>
      var hash := ParseBlockHash(cmd.block).value;
      var path := [BlockFileName(hash)];
      var header, body := env.node.header(hash), env.node.body(hash);
      effects == (if header.Found? then [GetHeader(hash), GetBody(hash)] else [GetHeader(hash)]) &&
      fs.dirs == old(fs.dirs) &&
      (!header.Found? ==> r == Err(ReplyError(header)) && fs.files == old(fs.files)) &&
      (header.Found? && !body.Found? ==> r == Err(ReplyError(body)) && fs.files == old(fs.files)) &&
      (header.Found? && body.Found? ==>
        r == Ok(path) && fs.files == old(fs.files)[path := env.encodeHeader(header.value)])
    ensures r.Ok? ==> fs.Exists(r.value)
  {
    effects := [];
    var parsed := ParseBlockHash(cmd.block);
    if parsed.Err? {
      return Err(parsed.error), effects;
    }
    var hash := parsed.value;
    var path := [BlockFileName(hash)];
    if fs.Exists(path) {
      return Ok(path), effects;
    }
    effects := [GetHeader(hash)];
    var header := env.node.header(hash);
    if !header.Found? {
      return Err(ReplyError(header)), effects;
    }
    effects := effects + [GetBody(hash)];
    var body := env.node.body(hash);
    if !body.Found? {
      return Err(ReplyError(body)), effects;
    }
    // built and then dropped: the file receives the header alone
    var rawExtrinsics := ConcatExtrinsics(body.value, env.encodeExtrinsic);
    var raw := env.encodeHeader(header.value);
    // the path is absent and its parent is the working directory, so the write succeeds
    var ok := fs.Write(path, raw);
    assert ok;
    assert fs.Exists(path);
    r := Ok(path);
  }

  /**
   * `create_snap`: reuse `snap-0x<hex>.raw` when it exists; otherwise run
   * `try-runtime create-snapshot --uri <rpc> --at <0xhex> <file>` and demand
   * both a successful exit and the file.
   */
  method CreateSnap(cmd: Cmd, env: Env, fs: FileSystem, block: Hash) returns (r: Result<Path>, effects: seq<Effect>)
    requires fs.Valid()
    modifies fs
    ensures fs.Valid()
    ensures fs.dirs == old(fs.dirs)
    ensures old(fs.Exists([SnapFileName(block)])) ==> r == Ok([SnapFileName(block)]) && effects == [] && fs.files == old(fs.files) && fs.dirs == old(fs.dirs)
    ensures !old(fs.Exists([SnapFileName(block)])) ==>
      var name := SnapFileName(block);
      var path := [name];
      var run := env.tryRuntime(cmd.rpc, Hex.Bytes2Hex("0x", block), name);
      effects == [SnapshotTool(cmd.rpc, Hex.Bytes2Hex("0x", block), name)] &&
      match run
      case NotStarted => r == Err(ToolNotStarted) && fs.files == old(fs.files)
      case Exited(success, wrote) =>
        fs.files == (if wrote.Some? then old(fs.files)[path := wrote.value] else old(fs.files)) &&
        r == (if success && wrote.Some? then Ok(path) else Err(SnapFailed))
    ensures r.Ok? ==> r.value == [SnapFileName(block)] && fs.Exists(r.value)
  {
    var at := Hex.Bytes2Hex("0x", block);
    var name := "snap-" + at + ".raw";
    var path := [name];
    effects := [];
    if fs.Exists(path) {
      return Ok(path), effects;
    }
    effects := [SnapshotTool(cmd.rpc, at, name)];
    var run := env.tryRuntime(cmd.rpc, at, name);
    if run.NotStarted? {
      return Err(ToolNotStarted), effects;
    }
    if run.wrote.Some? {
      // the tool writes its output file into the working directory
      var ok := fs.Write(path, run.wrote.value);
      assert ok;
    }
    if !run.success {
      return Err(SnapFailed), effects;
    }
    if !fs.Exists(path) {
      return Err(SnapFailed), effects;
    }
    r := Ok(path);
  }

  /** Each state `setup_project` can stop in agrees, outside `replay`, with the pruned tree it started from. */
  lemma SetUpStagesOutside(files: map<Path, Bytes>, dirs: set<Path>, toml: Bytes, lib: Bytes)
    ensures FilesOutside(FilesOutside(files, Project), Project) == FilesOutside(files, Project)
    ensures FilesOutside(FilesOutside(files, Project)[CargoToml := toml], Project) == FilesOutside(files, Project)
    ensures FilesOutside(SetUp(files, toml, lib), Project) == FilesOutside(files, Project)
    ensures DirsOutside(DirsOutside(dirs, Project) + {Project}, Project) == DirsOutside(dirs, Project)
    ensures DirsOutside(DirsOutside(dirs, Project) + {Project, SrcDir}, Project) == DirsOutside(dirs, Project)
  {
    assert Project <= CargoToml && Project <= LibRs && Project <= SrcDir;
    OutsideTwice(files, Project, {});
    assert files - {} == files && FilesOutside(files, Project) - {} == FilesOutside(files, Project);
    OutsideUpdate(FilesOutside(files, Project), Project, {}, CargoToml, toml);
    OutsideUpdate(FilesOutside(files, Project)[CargoToml := toml], Project, {}, LibRs, lib);
    assert FilesOutside(files, Project)[CargoToml := toml] - {} == FilesOutside(files, Project)[CargoToml := toml];
    assert SetUp(files, toml, lib) - {} == SetUp(files, toml, lib);
    DirsOutsideAdded(dirs, Project, {Project});
    DirsOutsideAdded(dirs, Project, {Project, SrcDir});
  }

  /**
   * `setup_project`: refuse an existing `replay` unless forced (then remove
   * it), create the directory, render and write `Cargo.toml` and
   * `src/lib.rs`.  A failure after the directory was created leaves what was
   * written so far.
   */
  method SetupProject(cmd: Cmd, env: Env, fs: FileSystem, snap: Path, rawBlock: Path) returns (r: Result<Path>)
    requires fs.Valid()
    modifies fs
    ensures fs.Valid()
    // nothing outside `replay` changes, whatever the outcome
    ensures FilesOutside(fs.files, Project) == FilesOutside(old(fs.files), Project)
    ensures DirsOutside(fs.dirs, Project) == DirsOutside(old(fs.dirs), Project)
    ensures old(fs.Exists(Project)) && !cmd.force ==> r == Err(ProjectExists) && fs.files == old(fs.files) && fs.dirs == old(fs.dirs)
    ensures old(fs.Exists(Project)) && cmd.force && Project !in old(fs.dirs) ==> r == Err(IoFailed) && fs.files == old(fs.files) && fs.dirs == old(fs.dirs)
    ensures !old(fs.Exists(Project)) || (cmd.force && Project in old(fs.dirs)) ==>
      var toml := env.renderCargoToml(cmd.runtimeName, cmd.sourceRepo, cmd.sourceRev);
      var lib := env.renderLibRs(snap, rawBlock);
      var files, dirs := FilesOutside(old(fs.files), Project), DirsOutside(old(fs.dirs), Project);
      if toml.None? then
        r == Err(RenderFailed) && fs.files == files && fs.dirs == dirs + {Project}
      else if lib.None? then
        r == Err(RenderFailed) && fs.files == files[CargoToml := toml.value] && fs.dirs == dirs + {Project, SrcDir}
      else
        r == Ok(Project) && fs.files == SetUp(old(fs.files), toml.value, lib.value) &&
        fs.dirs == dirs + {Project, SrcDir}
  {
    if fs.Exists(Project) {
      if cmd.force {
        var removed := fs.RemoveDirAll(Project);
        if !removed {
          return Err(IoFailed);
        }
      } else {
        return Err(ProjectExists);
      }
    } else {
      forall q | Project <= q
        ensures q !in fs.files && q !in fs.dirs
      {
        NothingBelowMissing(fs.files, fs.dirs, Project, q);
      }
      assert fs.files == FilesOutside(fs.files, Project);
      assert fs.dirs == DirsOutside(fs.dirs, Project);
    }
    var created := fs.CreateDir(Project);
    assert created;
    var toml := env.renderCargoToml(cmd.runtimeName, cmd.sourceRepo, cmd.sourceRev);
    ghost var rendered := env.renderLibRs(snap, rawBlock);
    SetUpStagesOutside(old(fs.files), old(fs.dirs), if toml.Some? then toml.value else [], if rendered.Some? then rendered.value else []);
    if toml.None? {
      return Err(RenderFailed);
    }
    assert Parent(CargoToml) == Project && Project <= CargoToml;
    var ok := fs.Write(CargoToml, toml.value);
    assert ok;
    assert Ancestry(SrcDir) == {Project, SrcDir} by {
      assert SrcDir[..1] == Project && SrcDir[..2] == SrcDir;
    }
    ok := fs.CreateDirAll(SrcDir);
    assert ok by {
      assert SrcDir[..1] == Project && SrcDir[..2] == SrcDir;
    }
    var lib := env.renderLibRs(snap, rawBlock);
    if lib.None? {
      return Err(RenderFailed);
    }
    assert Parent(LibRs) == SrcDir && Project <= LibRs;
    ok := fs.Write(LibRs, lib.value);
    assert ok;
    // the final `exists() && is_dir()` check of the source cannot fail here
    assert fs.Exists(Project) && fs.IsDir(Project);
    r := Ok(Project);
  }

  /** The lockfile URL for the runtime's repository and revision, on raw.githubusercontent.com. */
  function LockfileUrl(cmd: Cmd): (url: string)
    ensures |url| == 46 + |cmd.sourceRepo| + |cmd.sourceRev|
    ensures url[..34] == "https://raw.githubusercontent.com/"
    ensures url[34..34 + |cmd.sourceRepo|] == cmd.sourceRepo && url[34 + |cmd.sourceRepo|] == '/'
    ensures url[35 + |cmd.sourceRepo|..|url| - 11] == cmd.sourceRev
    ensures url[|url| - 11..] == "/Cargo.lock"
  {
    "https://raw.githubusercontent.com/" + cmd.sourceRepo + "/" + cmd.sourceRev + "/Cargo.lock"
  }

  /** `download_lockfile`: GET the lockfile and write its body, whatever the HTTP status, to `<project>/Cargo.lock`. */
  method DownloadLockfile(cmd: Cmd, env: Env, fs: FileSystem, project: Path) returns (r: Result<()>, effects: seq<Effect>)
    requires fs.Valid()
    modifies fs
    ensures fs.Valid()
    ensures effects == [HttpGet(LockfileUrl(cmd))]
    ensures fs.dirs == old(fs.dirs)
    ensures env.httpGet(LockfileUrl(cmd)).None? ==> r == Err(HttpFailed) && fs.files == old(fs.files)
    ensures env.httpGet(LockfileUrl(cmd)).Some? ==>
      var lockfile := project + ["Cargo.lock"];
      (r.Ok? <==> old(fs.IsDir(project)) && lockfile !in old(fs.dirs)) &&
      (r.Err? ==> r.error == IoFailed) &&
      fs.files == if r.Ok? then old(fs.files)[lockfile := env.httpGet(LockfileUrl(cmd)).value] else old(fs.files)
  {
    var url := LockfileUrl(cmd);
    effects := [HttpGet(url)];
    var body := env.httpGet(url);
    if body.None? {
      return Err(HttpFailed), effects;
    }
    var lockfile := project + ["Cargo.lock"];
    assert Parent(lockfile) == project;
    var ok := fs.Write(lockfile, body.value);
    r := if ok then Ok(()) else Err(IoFailed);
  }

  // ---------------------------------------------------------------------
  // The whole run

  /** The target block's hash, once the argument parses. */
  ghost function Target(cmd: Cmd): Hash
    requires ParseBlockHash(cmd.block).Ok?
  {
    ParseBlockHash(cmd.block).value
  }

  /** The target is known to the node, so its parent is too. */
  ghost predicate ParentKnown(cmd: Cmd, node: Node)
  {
    ParseBlockHash(cmd.block).Ok? && node.blockAt(Target(cmd)).Some?
  }

  ghost function ParentOf(cmd: Cmd, node: Node): Hash
    requires ParentKnown(cmd, node)
  {
    node.blockAt(Target(cmd)).value.parentHash
  }

  /** The `try-runtime` call for the parent of the target block, under that parent's cache name. */
  ghost function SnapshotCall(cmd: Cmd, node: Node): Effect
    requires ParentKnown(cmd, node)
  {
    var parent := ParentOf(cmd, node);
    SnapshotTool(cmd.rpc, Hex.Bytes2Hex("0x", parent), SnapFileName(parent))
  }

  /** `e` is a `try-runtime` call made for the parent of the target block. */
  ghost predicate SnapshotsParent(cmd: Cmd, node: Node, e: Effect)
  {
    ParentKnown(cmd, node) && e == SnapshotCall(cmd, node)
  }

  /** The raw block of the target is already in the working directory. */
  ghost predicate RawBlockCached(cmd: Cmd, files: map<Path, Bytes>, dirs: set<Path>)
  {
    ParseBlockHash(cmd.block).Ok? &&
    var path := [BlockFileName(Target(cmd))];
    path in files || path in dirs
  }

  /** The snapshot of the target's parent is already in the working directory. */
  ghost predicate SnapCached(cmd: Cmd, node: Node, files: map<Path, Bytes>, dirs: set<Path>)
  {
    ParentKnown(cmd, node) &&
    var path := [SnapFileName(ParentOf(cmd, node))];
    path in files || path in dirs
  }

  /** The two cache files of a run, once the target's parent is known: the only files outside `replay` a run may change. */
  ghost function CacheFiles(cmd: Cmd, node: Node): set<Path>
  {
    if ParentKnown(cmd, node) then {[BlockFileName(Target(cmd))], [SnapFileName(ParentOf(cmd, node))]} else {}
  }

  /**
   * The calls of the fetch stage, in order, when every step succeeds:
   * connect, look up the target block, fetch its header and body unless the
   * raw block is cached, snapshot the parent unless that is cached.  A stage
   * that stops early has made a prefix of them.
   */
  ghost function FetchPlan(cmd: Cmd, node: Node, files: map<Path, Bytes>, dirs: set<Path>): seq<Effect>
  {
    if ParseBlockHash(cmd.block).Err? then [Connect(cmd.rpc)]
    else if !ParentKnown(cmd, node) then [Connect(cmd.rpc), GetBlock(Target(cmd))]
    else
      var target := Target(cmd);
      [Connect(cmd.rpc), GetBlock(target)] +
      (if RawBlockCached(cmd, files, dirs) then [] else [GetHeader(target), GetBody(target)]) +
      (if SnapCached(cmd, node, files, dirs) then [] else [SnapshotCall(cmd, node)])
  }

  /** The calls of a whole run, in order, when every step succeeds: the fetch stage, then the lockfile request. */
  ghost function Plan(cmd: Cmd, node: Node, files: map<Path, Bytes>, dirs: set<Path>): seq<Effect>
  {
    FetchPlan(cmd, node, files, dirs) + [HttpGet(LockfileUrl(cmd))]
  }

  /** The run gets as far as `download_raw_block`: the arguments are valid and the node answers and knows the target. */
  ghost predicate ReachesDownload(cmd: Cmd, node: Node)
  {
    ValidateArgs(cmd).Ok? && node.reachable && ParentKnown(cmd, node)
  }

  /** The run gets as far as `create_snap`: it reaches the download and the raw block is cached or found. */
  ghost predicate ReachesSnapshot(cmd: Cmd, node: Node, files: map<Path, Bytes>, dirs: set<Path>)
  {
    ReachesDownload(cmd, node) &&
    (RawBlockCached(cmd, files, dirs) || (node.header(Target(cmd)).Found? && node.body(Target(cmd)).Found?))
  }

  /**
   * The errors raised before `setup_project` changed anything: every failure
   * of the fetch stage, and the refusal to touch an existing project.
   */
  predicate KeepsProject(e: Error)
  {
    !(e.IoFailed? || e.RenderFailed? || e.HttpFailed?)
  }

  /**
   * The project a successful run leaves: exactly the rendered manifest and
   * entry point, the lockfile, and both artifacts moved (not copied) from the
   * working directory into `replay` under their own names.  The raw block
   * holds the cached bytes or else the header's encoding alone; the snapshot
   * holds the cached bytes or else what `try-runtime` wrote.
   */
  ghost predicate Assembled(cmd: Cmd, env: Env, before: map<Path, Bytes>, files: map<Path, Bytes>, dirs: set<Path>)
  {
    ParentKnown(cmd, env.node) &&
    var target, parent := Target(cmd), ParentOf(cmd, env.node);
    var block, snap := BlockFileName(target), SnapFileName(parent);
    Below(dirs, Project) == {Project, SrcDir} &&
    Below(files.Keys, Project) == {CargoToml, LibRs, CargoLock, Project + [block], Project + [snap]} &&
    CargoToml in files && LibRs in files && CargoLock in files &&
    Project + [block] in files && Project + [snap] in files &&
    [block] !in files && [block] !in dirs && [snap] !in files && [snap] !in dirs &&
    env.renderCargoToml(cmd.runtimeName, cmd.sourceRepo, cmd.sourceRev) == Some(files[CargoToml]) &&
    env.renderLibRs([snap], [block]) == Some(files[LibRs]) &&
    env.httpGet(LockfileUrl(cmd)) == Some(files[CargoLock]) &&
    (if [block] in before then files[Project + [block]] == before[[block]]
     else env.node.header(target).Found? && files[Project + [block]] == env.encodeHeader(env.node.header(target).value)) &&
    (if [snap] in before then files[Project + [snap]] == before[[snap]]
     else env.tryRuntime(cmd.rpc, Hex.Bytes2Hex("0x", parent), snap) == Exited(true, Some(files[Project + [snap]])))
  }

  /**
   * Because the artifacts are moved rather than copied, a successful run
   * empties the cache: a later run for the same block finds neither file and
   * fetches both again.
   */
  lemma SuccessEmptiesCache(cmd: Cmd, env: Env, before: map<Path, Bytes>, files: map<Path, Bytes>, dirs: set<Path>)
    requires Assembled(cmd, env, before, files, dirs)
    ensures !RawBlockCached(cmd, files, dirs) && !SnapCached(cmd, env.node, files, dirs)
    ensures GetHeader(Target(cmd)) in FetchPlan(cmd, env.node, files, dirs)
    ensures SnapshotCall(cmd, env.node) in FetchPlan(cmd, env.node, files, dirs)
  {
  }

  /** A file name, as `Path::file_name` gives it: the last component, so a top-level file is named by itself. */
  function FileName(p: Path): (name: string)
    requires |p| > 0
    ensures |p| == 1 ==> [name] == p
  {
    p[|p| - 1]
  }

  /** Joining a path's file name to its parent gives the path back. */
  lemma FileNameJoinsParent(p: Path)
    requires |p| > 0
    ensures Parent(p) + [FileName(p)] == p
  {
  }

  /** The two cache artifacts a run works with, and the parent hash the snapshot was taken at. */
  datatype Artifacts = Artifacts(parent: Hash, rawBlock: Path, snap: Path)

  /**
   * What the working directory holds for the two artifacts once they are
   * fetched: the bytes that were cached, or else the header's encoding
   * alone for the raw block and what `try-runtime` wrote for the snapshot.
   */
  ghost predicate ArtifactsFetched(cmd: Cmd, env: Env, before: map<Path, Bytes>, files: map<Path, Bytes>)
  {
    ParentKnown(cmd, env.node) &&
    var target, parent := Target(cmd), ParentOf(cmd, env.node);
    var block, snap := [BlockFileName(target)], [SnapFileName(parent)];
    (block in files ==>
      if block in before then files[block] == before[block]
      else env.node.header(target).Found? && files[block] == env.encodeHeader(env.node.header(target).value)) &&
    (snap in files ==>
      if snap in before then files[snap] == before[snap]
      else env.tryRuntime(cmd.rpc, Hex.Bytes2Hex("0x", parent), SnapFileName(parent)) == Exited(true, Some(files[snap])))
  }

  /** What `try-runtime` does when asked for the snapshot of the target's parent. */
  ghost function SnapRun(cmd: Cmd, env: Env): ToolRun
    requires ParentKnown(cmd, env.node)
  {
    var parent := ParentOf(cmd, env.node);
    env.tryRuntime(cmd.rpc, Hex.Bytes2Hex("0x", parent), SnapFileName(parent))
  }

  /** `download_raw_block` gets the raw block: it was cached, or the node has both header and body. */
  ghost predicate BlockAvailable(cmd: Cmd, env: Env, files: map<Path, Bytes>, dirs: set<Path>)
    requires ParseBlockHash(cmd.block).Ok?
  {
    RawBlockCached(cmd, files, dirs) || (env.node.header(Target(cmd)).Found? && env.node.body(Target(cmd)).Found?)
  }

  /**
   * Once the parent is known: the error of the first of `download_raw_block`
   * and `create_snap` that fails, or None when both succeed.
   */
  ghost function CacheFailure(cmd: Cmd, env: Env, files: map<Path, Bytes>, dirs: set<Path>): Option<Error>
    requires ParentKnown(cmd, env.node)
  {
    var target := Target(cmd);
    if !RawBlockCached(cmd, files, dirs) && !env.node.header(target).Found? then Some(ReplyError(env.node.header(target)))
    else if !RawBlockCached(cmd, files, dirs) && !env.node.body(target).Found? then Some(ReplyError(env.node.body(target)))
    else if SnapCached(cmd, env.node, files, dirs) then None
    else
      match SnapRun(cmd, env)
      case NotStarted => Some(ToolNotStarted)
      case Exited(success, wrote) => if success && wrote.Some? then None else Some(SnapFailed)
  }

  /**
   * Once the parent is known: the calls of `download_raw_block` (the body is
   * asked for only when the header was found) and then, when the raw block
   * is there, of `create_snap`.
   */
  ghost function CacheEffects(cmd: Cmd, env: Env, files: map<Path, Bytes>, dirs: set<Path>): seq<Effect>
    requires ParentKnown(cmd, env.node)
  {
    var target := Target(cmd);
    (if RawBlockCached(cmd, files, dirs) then []
     else if env.node.header(target).Found? then [GetHeader(target), GetBody(target)]
     else [GetHeader(target)]) +
    (if !BlockAvailable(cmd, env, files, dirs) || SnapCached(cmd, env.node, files, dirs) then []
     else [SnapshotCall(cmd, env.node)])
  }

  /**
   * Once the parent is known: the files after `download_raw_block` and
   * `create_snap`.  A raw block that was not cached holds the header's
   * encoding once header and body were found; a snapshot that was not cached
   * holds whatever `try-runtime` wrote, whatever its exit status.
   */
  ghost function CachedFiles(cmd: Cmd, env: Env, files: map<Path, Bytes>, dirs: set<Path>): map<Path, Bytes>
    requires ParentKnown(cmd, env.node)
  {
    var target, parent := Target(cmd), ParentOf(cmd, env.node);
    if !BlockAvailable(cmd, env, files, dirs) then files
    else
      var withBlock :=
        if RawBlockCached(cmd, files, dirs) then files
        else files[[BlockFileName(target)] := env.encodeHeader(env.node.header(target).value)];
      if SnapCached(cmd, env.node, files, dirs) then withBlock
      else
        match SnapRun(cmd, env)
        case Exited(_, Some(bytes)) => withBlock[[SnapFileName(parent)] := bytes]
        case _ => withBlock
  }

  /**
   * The error of the first step of the fetch stage that fails, each `?` of
   * `run` up to `create_snap` in turn; None when every step succeeds.
   */
  ghost function FetchFailure(cmd: Cmd, env: Env, files: map<Path, Bytes>, dirs: set<Path>): Option<Error>
  {
    if ValidateArgs(cmd).Err? then Some(ValidateArgs(cmd).error)
    else if !env.node.reachable then Some(ConnectFailed)
    else if ParseBlockHash(cmd.block).Err? then Some(ParseBlockHash(cmd.block).error)
    else if !ParentKnown(cmd, env.node) then Some(RpcFailed)
    else CacheFailure(cmd, env, files, dirs)
  }

  /** The calls the fetch stage makes: its plan, cut off right after the call that failed. */
  ghost function FetchEffects(cmd: Cmd, env: Env, files: map<Path, Bytes>, dirs: set<Path>): seq<Effect>
  {
    if ValidateArgs(cmd).Err? then []
    else if !env.node.reachable || ParseBlockHash(cmd.block).Err? then [Connect(cmd.rpc)]
    else if !ParentKnown(cmd, env.node) then [Connect(cmd.rpc), GetBlock(Target(cmd))]
    else [Connect(cmd.rpc), GetBlock(Target(cmd))] + CacheEffects(cmd, env, files, dirs)
  }

  /** The files after the fetch stage: only `download_raw_block` and `create_snap` write. */
  ghost function FetchedFiles(cmd: Cmd, env: Env, files: map<Path, Bytes>, dirs: set<Path>): map<Path, Bytes>
  {
    if ReachesDownload(cmd, env.node) then CachedFiles(cmd, env, files, dirs) else files
  }

  /** The calls the fetch stage makes are a prefix of its plan, all of it once the raw block is there. */
  lemma FetchEffectsFollowPlan(cmd: Cmd, env: Env, files: map<Path, Bytes>, dirs: set<Path>)
    ensures var effects := FetchEffects(cmd, env, files, dirs);
      effects <= FetchPlan(cmd, env.node, files, dirs) &&
      (FetchFailure(cmd, env, files, dirs).None? ==> effects == FetchPlan(cmd, env.node, files, dirs)) &&
      (ReachesSnapshot(cmd, env.node, files, dirs) ==> effects == FetchPlan(cmd, env.node, files, dirs)) &&
      (ReachesDownload(cmd, env.node) && !RawBlockCached(cmd, files, dirs) ==> GetHeader(Target(cmd)) in effects)
  {
    if ReachesDownload(cmd, env.node) {
      assert FetchEffects(cmd, env, files, dirs) == [Connect(cmd.rpc), GetBlock(Target(cmd))] + CacheEffects(cmd, env, files, dirs);
    }
  }

  /**
   * The fetch stage calls nothing for invalid arguments and starts with the
   * connection otherwise, snapshots only the parent, and fetches nothing
   * that is cached.
   */
  lemma FetchEffectsRespectCache(cmd: Cmd, env: Env, files: map<Path, Bytes>, dirs: set<Path>)
    ensures var effects := FetchEffects(cmd, env, files, dirs);
      (effects != [] <==> ValidateArgs(cmd).Ok?) &&
      (effects != [] ==> effects[0] == Connect(cmd.rpc)) &&
      (forall e | e in effects && e.SnapshotTool? :: SnapshotsParent(cmd, env.node, e)) &&
      (RawBlockCached(cmd, files, dirs) ==> forall e | e in effects :: !e.GetHeader? && !e.GetBody?) &&
      (SnapCached(cmd, env.node, files, dirs) ==> forall e | e in effects :: !e.SnapshotTool?)
  {
    if ReachesDownload(cmd, env.node) {
      var cache := CacheEffects(cmd, env, files, dirs);
      assert FetchEffects(cmd, env, files, dirs) == [Connect(cmd.rpc), GetBlock(Target(cmd))] + cache;
      assert forall e | e in cache :: e.GetHeader? || e.GetBody? || e == SnapshotCall(cmd, env.node);
    }
  }

  /**
   * The fetch stage keeps every file that was there, only ever adds the two
   * cache files, and on success leaves both artifacts as `ArtifactsFetched`
   * describes them.
   */
  lemma FetchedFilesFacts(cmd: Cmd, env: Env, files: map<Path, Bytes>, dirs: set<Path>)
    ensures var fetched := FetchedFiles(cmd, env, files, dirs);
      (forall p | p in files :: p in fetched && fetched[p] == files[p]) &&
      (forall p | p in fetched && p !in files :: p in CacheFiles(cmd, env.node)) &&
      fetched - CacheFiles(cmd, env.node) == files - CacheFiles(cmd, env.node) &&
      (FetchFailure(cmd, env, files, dirs).None? ==>
        ReachesSnapshot(cmd, env.node, files, dirs) && ArtifactsFetched(cmd, env, files, fetched) &&
        ([BlockFileName(Target(cmd))] in fetched || [BlockFileName(Target(cmd))] in dirs) &&
        ([SnapFileName(ParentOf(cmd, env.node))] in fetched || [SnapFileName(ParentOf(cmd, env.node))] in dirs))
  {
  }

  /**
   * The two caching steps of `Cmd::run` once the parent is known:
   * `download_raw_block`, then, if it succeeded, `create_snap` for the parent.
   */
  method FillCache(cmd: Cmd, env: Env, fs: FileSystem, parent: Hash) returns (r: Result<(Path, Path)>, effects: seq<Effect>)
    requires fs.Valid()
    requires ParentKnown(cmd, env.node) && parent == ParentOf(cmd, env.node)
    modifies fs
    ensures fs.Valid()
    ensures fs.dirs == old(fs.dirs)
    ensures r.Err? <==> CacheFailure(cmd, env, old(fs.files), old(fs.dirs)).Some?
    ensures r.Err? ==> r.error == CacheFailure(cmd, env, old(fs.files), old(fs.dirs)).value
    ensures r.Ok? ==> r.value == ([BlockFileName(Target(cmd))], [SnapFileName(parent)])
    ensures effects == CacheEffects(cmd, env, old(fs.files), old(fs.dirs))
    ensures fs.files == CachedFiles(cmd, env, old(fs.files), old(fs.dirs))
  {
    ghost var block, snapName := [BlockFileName(Target(cmd))], [SnapFileName(parent)];
    assert block != snapName by {
      FileNamesInjective(Target(cmd), parent);
    }
    ghost var blockCached := RawBlockCached(cmd, fs.files, fs.dirs);
    ghost var snapCached := SnapCached(cmd, env.node, fs.files, fs.dirs);
    assert blockCached == fs.Exists(block) && snapCached == fs.Exists(snapName);
    var rawBlock, blockEffects := DownloadRawBlock(cmd, env, fs);
    if rawBlock.Err? {
      return Err(rawBlock.error), blockEffects;
    }
    assert snapCached == fs.Exists(snapName);
    var snap, snapEffects := CreateSnap(cmd, env, fs, parent);
    effects := blockEffects + snapEffects;
    if snap.Err? {
      return Err(snap.error), effects;
    }
    r := Ok((rawBlock.value, snap.value));
  }

  /**
   * The first half of `Cmd::run`, up to and including `create_snap`:
   * validate, connect, resolve the parent, fetch the raw block and snapshot
   * the parent, stopping at the first failure.  `FetchFailure`,
   * `FetchEffects` and `FetchedFiles` say exactly how it ends.
   */
  method FetchArtifacts(cmd: Cmd, env: Env, fs: FileSystem) returns (r: Result<Artifacts>, effects: seq<Effect>)
    requires fs.Valid()
    modifies fs
    ensures fs.Valid()
    ensures fs.dirs == old(fs.dirs)
    ensures ValidateArgs(cmd).Err? ==>
      r == Err(ValidateArgs(cmd).error) && effects == [] && fs.files == old(fs.files)
    ensures effects != [] <==> ValidateArgs(cmd).Ok?
    ensures effects != [] ==> effects[0] == Connect(cmd.rpc)
    ensures forall e | e in effects && e.SnapshotTool? :: SnapshotsParent(cmd, env.node, e)
    ensures RawBlockCached(cmd, old(fs.files), old(fs.dirs)) ==> forall e | e in effects :: !e.GetHeader? && !e.GetBody?
    ensures SnapCached(cmd, env.node, old(fs.files), old(fs.dirs)) ==> forall e | e in effects :: !e.SnapshotTool?
    // the calls come in the fixed order, and the stage stops at the first failure
    ensures effects <= FetchPlan(cmd, env.node, old(fs.files), old(fs.dirs))
    // a file that is not cached is fetched
    ensures ReachesDownload(cmd, env.node) && !RawBlockCached(cmd, old(fs.files), old(fs.dirs)) ==> GetHeader(Target(cmd)) in effects
    ensures ReachesSnapshot(cmd, env.node, old(fs.files), old(fs.dirs)) ==> effects == FetchPlan(cmd, env.node, old(fs.files), old(fs.dirs))
    // only the two cache files may change
    ensures fs.files - CacheFiles(cmd, env.node) == old(fs.files) - CacheFiles(cmd, env.node)
    // the outcome: which step fails first, with which error, the calls made until then, the files left behind
    ensures r.Err? <==> FetchFailure(cmd, env, old(fs.files), old(fs.dirs)).Some?
    ensures r.Err? ==> r.error == FetchFailure(cmd, env, old(fs.files), old(fs.dirs)).value
    ensures effects == FetchEffects(cmd, env, old(fs.files), old(fs.dirs))
    ensures fs.files == FetchedFiles(cmd, env, old(fs.files), old(fs.dirs))
    ensures r.Ok? ==>
      ReachesSnapshot(cmd, env.node, old(fs.files), old(fs.dirs)) &&
      ParentKnown(cmd, env.node) && r.value.parent == ParentOf(cmd, env.node) &&
      r.value.rawBlock == [BlockFileName(Target(cmd))] && r.value.snap == [SnapFileName(r.value.parent)] &&
      ArtifactsFetched(cmd, env, old(fs.files), fs.files)
  {
    ghost var files0, dirs0 := fs.files, fs.dirs;
    FetchEffectsFollowPlan(cmd, env, files0, dirs0);
    FetchEffectsRespectCache(cmd, env, files0, dirs0);
    FetchedFilesFacts(cmd, env, files0, dirs0);
    effects := [];
    var valid := ValidateArgs(cmd);
    if valid.Err? {
      return Err(valid.error), effects;
    }
    effects := [Connect(cmd.rpc)];
    if !env.node.reachable {
      return Err(ConnectFailed), effects;
    }
    var parent, parentEffects := FindParentBlock(cmd, env.node);
    effects := effects + parentEffects;
    if parent.Err? {
      assert FetchFailure(cmd, env, files0, dirs0) == Some(parent.error);
      return Err(parent.error), effects;
    }
    assert effects == [Connect(cmd.rpc), GetBlock(Target(cmd))];
    var cached, cacheEffects := FillCache(cmd, env, fs, parent.value);
    effects := effects + cacheEffects;
    assert effects == FetchEffects(cmd, env, files0, dirs0);
    assert fs.files == FetchedFiles(cmd, env, files0, dirs0);
    if cached.Err? {
      return Err(cached.error), effects;
    }
    r := Ok(Artifacts(parent.value, cached.value.0, cached.value.1));
  }

  /**
   * The error of the first step of the install stage that fails, started
   * from `files` and `dirs` with the parent known: `setup_project` refuses an
   * existing `replay` unless forced, cannot remove a `replay` that is not a
   * directory, or cannot render a template; a move fails when its artifact
   * is not a file; the lockfile request fails.  None when every step succeeds.
   */
  ghost function InstallFailure(cmd: Cmd, env: Env, files: map<Path, Bytes>, dirs: set<Path>): Option<Error>
    requires ParentKnown(cmd, env.node)
  {
    var block, snap := [BlockFileName(Target(cmd))], [SnapFileName(ParentOf(cmd, env.node))];
    var present := Project in files || Project in dirs;
    if present && !cmd.force then Some(ProjectExists)
    else if present && Project !in dirs then Some(IoFailed)
    else if env.renderCargoToml(cmd.runtimeName, cmd.sourceRepo, cmd.sourceRev).None? then Some(RenderFailed)
    else if env.renderLibRs(snap, block).None? then Some(RenderFailed)
    else if snap !in files || block !in files then Some(IoFailed)
    else if env.httpGet(LockfileUrl(cmd)).None? then Some(HttpFailed)
    else None
  }

  /** Once `setup_project` has succeeded, only the moves and the lockfile request can still fail. */
  lemma InstallFailureOnceSetUp(cmd: Cmd, env: Env, files: map<Path, Bytes>, dirs: set<Path>)
    requires ParentKnown(cmd, env.node)
    requires (Project !in files && Project !in dirs) || (cmd.force && Project in dirs)
    requires env.renderCargoToml(cmd.runtimeName, cmd.sourceRepo, cmd.sourceRev).Some?
    requires env.renderLibRs([SnapFileName(ParentOf(cmd, env.node))], [BlockFileName(Target(cmd))]).Some?
    ensures InstallFailure(cmd, env, files, dirs) ==
      if [SnapFileName(ParentOf(cmd, env.node))] !in files || [BlockFileName(Target(cmd))] !in files then Some(IoFailed)
      else if env.httpGet(LockfileUrl(cmd)).None? then Some(HttpFailed)
      else None
    ensures InstalledDirs(cmd, env, files, dirs) == DirsOutside(dirs, Project) + {Project, SrcDir}
    ensures var block, snap := [BlockFileName(Target(cmd))], [SnapFileName(ParentOf(cmd, env.node))];
      var setUp := SetUp(files, env.renderCargoToml(cmd.runtimeName, cmd.sourceRepo, cmd.sourceRev).value, env.renderLibRs(snap, block).value);
      InstalledFiles(cmd, env, files, dirs) ==
        if snap !in setUp then setUp
        else
          var snapMoved := Moved(setUp, snap, Project + snap);
          if block !in snapMoved then snapMoved
          else
            var bothMoved := Moved(snapMoved, block, Project + block);
            if env.httpGet(LockfileUrl(cmd)).None? then bothMoved else bothMoved[CargoLock := env.httpGet(LockfileUrl(cmd)).value]
  {
  }

  /** The calls of the install stage: the lockfile request, made only once everything before it succeeded. */
  ghost function InstallEffects(cmd: Cmd, env: Env, files: map<Path, Bytes>, dirs: set<Path>): seq<Effect>
    requires ParentKnown(cmd, env.node)
  {
    var failure := InstallFailure(cmd, env, files, dirs);
    if failure.None? || failure == Some(HttpFailed) then [HttpGet(LockfileUrl(cmd))] else []
  }

  /**
   * The files after the install stage: `setup_project` replaces `replay` step
   * by step, then the snapshot and the raw block are moved into it and the
   * lockfile is written, each only once the steps before it succeeded.  A
   * later failure undoes nothing.
   */
  ghost function InstalledFiles(cmd: Cmd, env: Env, files: map<Path, Bytes>, dirs: set<Path>): map<Path, Bytes>
    requires ParentKnown(cmd, env.node)
  {
    var block, snap := [BlockFileName(Target(cmd))], [SnapFileName(ParentOf(cmd, env.node))];
    var toml := env.renderCargoToml(cmd.runtimeName, cmd.sourceRepo, cmd.sourceRev);
    var lib := env.renderLibRs(snap, block);
    var lock := env.httpGet(LockfileUrl(cmd));
    if (Project in files || Project in dirs) && (!cmd.force || Project !in dirs) then files
    else if toml.None? then FilesOutside(files, Project)
    else if lib.None? then FilesOutside(files, Project)[CargoToml := toml.value]
    else
      var setUp := SetUp(files, toml.value, lib.value);
      if snap !in setUp then setUp
      else
        var snapMoved := Moved(setUp, snap, Project + snap);
        if block !in snapMoved then snapMoved
        else
          var bothMoved := Moved(snapMoved, block, Project + block);
          if lock.None? then bothMoved else bothMoved[CargoLock := lock.value]
  }

  /** The directories after the install stage: `replay` and `replay/src`, as far as `setup_project` got. */
  ghost function InstalledDirs(cmd: Cmd, env: Env, files: map<Path, Bytes>, dirs: set<Path>): set<Path>
  {
    if (Project in files || Project in dirs) && (!cmd.force || Project !in dirs) then dirs
    else if env.renderCargoToml(cmd.runtimeName, cmd.sourceRepo, cmd.sourceRev).None? then DirsOutside(dirs, Project) + {Project}
    else DirsOutside(dirs, Project) + {Project, SrcDir}
  }

  /** The two cache files lie outside `replay`; moved into it, they clash with each other and with none of its own files. */
  lemma CacheNamesApart(target: Hash, parent: Hash)
    ensures var block, snap := [BlockFileName(target)], [SnapFileName(parent)];
      block != snap && block != Project && snap != Project && !(Project <= block) && !(Project <= snap) &&
      block[0] != "replay" && snap[0] != "replay" &&
      Project <= Project + block && Project <= Project + snap && Project + block != Project + snap &&
      Project + block !in {CargoToml, LibRs, CargoLock} && Project + snap !in {CargoToml, LibRs, CargoLock} &&
      |block| == 1 && |snap| == 1 && block[0] != "src" && snap[0] != "src"
  {
    var block, snap := [BlockFileName(target)], [SnapFileName(parent)];
    assert block[0][0] == 'b' && snap[0][0] == 's' && "replay"[0] == 'r';
    assert "Cargo.toml"[0] == 'C' && "Cargo.lock"[0] == 'C';
    assert (Project + block)[1] == block[0] && (Project + snap)[1] == snap[0];
    assert LibRs[1] == "src" && |block[0]| == 76 && |snap[0]| == 75;
  }

  /** A refused or unremovable `replay` stops the install stage with every file and directory as it was. */
  lemma InstallRefusalKeepsTree(cmd: Cmd, env: Env, files: map<Path, Bytes>, dirs: set<Path>)
    requires ParentKnown(cmd, env.node)
    requires (Project in files || Project in dirs) && (!cmd.force || Project !in dirs)
    ensures InstallFailure(cmd, env, files, dirs).Some?
    ensures InstalledFiles(cmd, env, files, dirs) == files && InstalledDirs(cmd, env, files, dirs) == dirs
  {
  }

  /**
   * A template that does not render leaves a fresh `replay` without
   * `src/lib.rs`, and both artifacts where they were.
   */
  lemma RenderFailureLeaves(cmd: Cmd, env: Env, files: map<Path, Bytes>, dirs: set<Path>)
    requires ParentKnown(cmd, env.node)
    requires InstallFailure(cmd, env, files, dirs) == Some(RenderFailed)
    ensures var after, block, snap := InstalledFiles(cmd, env, files, dirs), [BlockFileName(Target(cmd))], [SnapFileName(ParentOf(cmd, env.node))];
      Project in InstalledDirs(cmd, env, files, dirs) && LibRs !in after && CargoLock !in after &&
      Project + block !in after && Project + snap !in after &&
      (block in files ==> block in after && after[block] == files[block]) &&
      (snap in files ==> snap in after && after[snap] == files[snap])
  {
    CacheNamesApart(Target(cmd), ParentOf(cmd, env.node));
  }

  /**
   * Once `replay` is set up, a failed move leaves no lockfile and the raw
   * block outside `replay`; the snapshot, when it was there, has been moved
   * in with its bytes.
   */
  lemma MoveFailureLeaves(cmd: Cmd, env: Env, files: map<Path, Bytes>, dirs: set<Path>)
    requires ParentKnown(cmd, env.node)
    requires (Project !in files && Project !in dirs) || (cmd.force && Project in dirs)
    requires InstallFailure(cmd, env, files, dirs) == Some(IoFailed)
    ensures var after, block, snap := InstalledFiles(cmd, env, files, dirs), [BlockFileName(Target(cmd))], [SnapFileName(ParentOf(cmd, env.node))];
      Project in InstalledDirs(cmd, env, files, dirs) && CargoLock !in after && Project + block !in after &&
      (snap in files ==> Project + snap in after && after[Project + snap] == files[snap] && snap !in after)
  {
    var block, snap := [BlockFileName(Target(cmd))], [SnapFileName(ParentOf(cmd, env.node))];
    CacheNamesApart(Target(cmd), ParentOf(cmd, env.node));
    var toml := env.renderCargoToml(cmd.runtimeName, cmd.sourceRepo, cmd.sourceRev).value;
    var lib := env.renderLibRs(snap, block).value;
    SetUpOutside(files, toml, lib, block[0]);
    SetUpOutside(files, toml, lib, snap[0]);
  }

  /**
   * A failed lockfile request comes after both moves: both artifacts are
   * inside `replay` with their bytes, gone from the working directory,
   * beside the rendered files, and there is no `Cargo.lock`.
   */
  lemma LockfileFailureLeaves(cmd: Cmd, env: Env, files: map<Path, Bytes>, dirs: set<Path>)
    requires ParentKnown(cmd, env.node)
    requires InstallFailure(cmd, env, files, dirs) == Some(HttpFailed)
    ensures var after, block, snap := InstalledFiles(cmd, env, files, dirs), [BlockFileName(Target(cmd))], [SnapFileName(ParentOf(cmd, env.node))];
      block in files && snap in files &&
      Project + block in after && after[Project + block] == files[block] && block !in after &&
      Project + snap in after && after[Project + snap] == files[snap] && snap !in after &&
      CargoToml in after && LibRs in after && CargoLock !in after
  {
    var block, snap := [BlockFileName(Target(cmd))], [SnapFileName(ParentOf(cmd, env.node))];
    CacheNamesApart(Target(cmd), ParentOf(cmd, env.node));
    var toml := env.renderCargoToml(cmd.runtimeName, cmd.sourceRepo, cmd.sourceRev).value;
    var lib := env.renderLibRs(snap, block).value;
    SetUpOutside(files, toml, lib, block[0]);
    SetUpOutside(files, toml, lib, snap[0]);
  }

  /** The error of the first step of `Cmd::run` that fails, or None when the run succeeds. */
  ghost function RunFailure(cmd: Cmd, env: Env, files: map<Path, Bytes>, dirs: set<Path>): Option<Error>
  {
    var fetchFailure := FetchFailure(cmd, env, files, dirs);
    if fetchFailure.Some? then fetchFailure
    else InstallFailure(cmd, env, FetchedFiles(cmd, env, files, dirs), dirs)
  }

  /** The calls `Cmd::run` makes, in order, up to the one that failed. */
  ghost function RunEffects(cmd: Cmd, env: Env, files: map<Path, Bytes>, dirs: set<Path>): seq<Effect>
  {
    FetchEffects(cmd, env, files, dirs) +
    if FetchFailure(cmd, env, files, dirs).Some? then []
    else InstallEffects(cmd, env, FetchedFiles(cmd, env, files, dirs), dirs)
  }

  /** The files after `Cmd::run`: the fetch stage's, then the install stage's once the fetch stage succeeded. */
  ghost function RunFiles(cmd: Cmd, env: Env, files: map<Path, Bytes>, dirs: set<Path>): map<Path, Bytes>
  {
    var fetched := FetchedFiles(cmd, env, files, dirs);
    if FetchFailure(cmd, env, files, dirs).Some? then fetched
    else InstalledFiles(cmd, env, fetched, dirs)
  }

  /** The directories after `Cmd::run`: only the install stage changes them. */
  ghost function RunDirs(cmd: Cmd, env: Env, files: map<Path, Bytes>, dirs: set<Path>): set<Path>
  {
    if FetchFailure(cmd, env, files, dirs).Some? then dirs
    else InstalledDirs(cmd, env, FetchedFiles(cmd, env, files, dirs), dirs)
  }

  /**
   * The calls of a run follow its plan and stop at the first failure; only
   * the lockfile request follows the fetch stage, and a failure that keeps
   * `replay` as it was stops before it.
   */
  lemma RunEffectsFollowPlan(cmd: Cmd, env: Env, files: map<Path, Bytes>, dirs: set<Path>)
    ensures var effects, failure := RunEffects(cmd, env, files, dirs), RunFailure(cmd, env, files, dirs);
      effects <= Plan(cmd, env.node, files, dirs) &&
      (failure.None? ==> effects == Plan(cmd, env.node, files, dirs)) &&
      (failure.Some? && KeepsProject(failure.value) ==> effects == FetchEffects(cmd, env, files, dirs)) &&
      (effects != [] ==> ValidateArgs(cmd).Ok? && effects[0] == Connect(cmd.rpc)) &&
      (forall e | e in effects && e.SnapshotTool? :: SnapshotsParent(cmd, env.node, e)) &&
      (RawBlockCached(cmd, files, dirs) ==> forall e | e in effects :: !e.GetHeader? && !e.GetBody?) &&
      (SnapCached(cmd, env.node, files, dirs) ==> forall e | e in effects :: !e.SnapshotTool?) &&
      (ReachesDownload(cmd, env.node) && !RawBlockCached(cmd, files, dirs) ==> GetHeader(Target(cmd)) in effects) &&
      (ReachesSnapshot(cmd, env.node, files, dirs) && !SnapCached(cmd, env.node, files, dirs) ==> SnapshotCall(cmd, env.node) in effects)
  {
    FetchEffectsFollowPlan(cmd, env, files, dirs);
    FetchEffectsRespectCache(cmd, env, files, dirs);
    var fetchEffects := FetchEffects(cmd, env, files, dirs);
    var effects := RunEffects(cmd, env, files, dirs);
    assert fetchEffects <= effects;
    if ReachesSnapshot(cmd, env.node, files, dirs) && !SnapCached(cmd, env.node, files, dirs) {
      assert fetchEffects == FetchPlan(cmd, env.node, files, dirs);
      assert SnapshotCall(cmd, env.node) in fetchEffects;
    }
    if FetchFailure(cmd, env, files, dirs).None? {
      var install := InstallEffects(cmd, env, FetchedFiles(cmd, env, files, dirs), dirs);
      assert effects == fetchEffects + install;
      assert forall e | e in install :: e == HttpGet(LockfileUrl(cmd));
    }
  }

  /**
   * A run stops at the first step of the fetch stage that fails: that
   * step's error is the run's, and the calls stop there, the last one being
   * that step's own when it makes one (the hash parse makes none).  No file
   * has changed, save what a failed `try-runtime` run leaves behind.
   */
  lemma RunStopsAtFirstFailure(cmd: Cmd, env: Env, files: map<Path, Bytes>, dirs: set<Path>)
    ensures ValidateArgs(cmd).Err? ==>
      RunFailure(cmd, env, files, dirs) == Some(ValidateArgs(cmd).error) && RunEffects(cmd, env, files, dirs) == [] &&
      FetchedFiles(cmd, env, files, dirs) == files
    ensures ValidateArgs(cmd).Ok? && !env.node.reachable ==>
      RunFailure(cmd, env, files, dirs) == Some(ConnectFailed) && RunEffects(cmd, env, files, dirs) == [Connect(cmd.rpc)] &&
      FetchedFiles(cmd, env, files, dirs) == files
    ensures ValidateArgs(cmd).Ok? && env.node.reachable && ParseBlockHash(cmd.block).Err? ==>
      RunFailure(cmd, env, files, dirs) == Some(ParseBlockHash(cmd.block).error) && RunEffects(cmd, env, files, dirs) == [Connect(cmd.rpc)] &&
      FetchedFiles(cmd, env, files, dirs) == files
    ensures ValidateArgs(cmd).Ok? && env.node.reachable && ParseBlockHash(cmd.block).Ok? && !ParentKnown(cmd, env.node) ==>
      RunFailure(cmd, env, files, dirs) == Some(RpcFailed) &&
      RunEffects(cmd, env, files, dirs) == [Connect(cmd.rpc), GetBlock(Target(cmd))] &&
      FetchedFiles(cmd, env, files, dirs) == files
    ensures ReachesDownload(cmd, env.node) && !RawBlockCached(cmd, files, dirs) && !env.node.header(Target(cmd)).Found? ==>
      RunFailure(cmd, env, files, dirs) == Some(ReplyError(env.node.header(Target(cmd)))) &&
      RunEffects(cmd, env, files, dirs) == [Connect(cmd.rpc), GetBlock(Target(cmd)), GetHeader(Target(cmd))] &&
      FetchedFiles(cmd, env, files, dirs) == files
    ensures ReachesDownload(cmd, env.node) && !RawBlockCached(cmd, files, dirs) &&
            env.node.header(Target(cmd)).Found? && !env.node.body(Target(cmd)).Found? ==>
      RunFailure(cmd, env, files, dirs) == Some(ReplyError(env.node.body(Target(cmd)))) &&
      RunEffects(cmd, env, files, dirs) == [Connect(cmd.rpc), GetBlock(Target(cmd)), GetHeader(Target(cmd)), GetBody(Target(cmd))] &&
      FetchedFiles(cmd, env, files, dirs) == files
    ensures ReachesSnapshot(cmd, env.node, files, dirs) && !SnapCached(cmd, env.node, files, dirs) &&
            !(SnapRun(cmd, env).Exited? && SnapRun(cmd, env).success && SnapRun(cmd, env).wrote.Some?) ==>
      RunFailure(cmd, env, files, dirs) == Some(if SnapRun(cmd, env).NotStarted? then ToolNotStarted else SnapFailed) &&
      RunEffects(cmd, env, files, dirs) == FetchPlan(cmd, env.node, files, dirs)
  {
    FetchEffectsFollowPlan(cmd, env, files, dirs);
  }

  /**
   * When `Cmd::run` succeeds: the arguments are valid, the node is reachable
   * and knows the target; each artifact is cached or is produced (header
   * and body found, `try-runtime` exits successfully having written the
   * snapshot); `replay` is absent, or forced and a directory; both templates
   * render; the lockfile request answers; and neither cache entry is a
   * directory, which the moves would refuse.
   */
  lemma RunSucceedsExactly(cmd: Cmd, env: Env, files: map<Path, Bytes>, dirs: set<Path>)
    requires WellFormed(files, dirs)
    ensures RunFailure(cmd, env, files, dirs).None? <==>
      ReachesSnapshot(cmd, env.node, files, dirs) &&
      (SnapCached(cmd, env.node, files, dirs) || (SnapRun(cmd, env).Exited? && SnapRun(cmd, env).success && SnapRun(cmd, env).wrote.Some?)) &&
      ((Project !in files && Project !in dirs) || (cmd.force && Project in dirs)) &&
      env.renderCargoToml(cmd.runtimeName, cmd.sourceRepo, cmd.sourceRev).Some? &&
      env.renderLibRs([SnapFileName(ParentOf(cmd, env.node))], [BlockFileName(Target(cmd))]).Some? &&
      env.httpGet(LockfileUrl(cmd)).Some? &&
      [BlockFileName(Target(cmd))] !in dirs && [SnapFileName(ParentOf(cmd, env.node))] !in dirs
  {
    if ReachesDownload(cmd, env.node) {
      var block, snap := [BlockFileName(Target(cmd))], [SnapFileName(ParentOf(cmd, env.node))];
      assert Named(block) && Named(snap) && Named(Project);
      FetchedFilesFacts(cmd, env, files, dirs);
      var fetched := FetchedFiles(cmd, env, files, dirs);
      assert Project in fetched <==> Project in files by {
        assert Project != block && Project != snap by {
          assert Project[0][0] == 'r' && block[0][0] == 'b' && snap[0][0] == 's';
        }
      }
    }
  }

  /**
   * Without `--force`, a run that finds `replay` in place fails without
   * touching it: whatever stops it, the error is one raised before
   * `setup_project` removes or writes anything.
   */
  lemma NoForceKeepsProject(cmd: Cmd, env: Env, files: map<Path, Bytes>, dirs: set<Path>)
    requires (Project in files || Project in dirs) && !cmd.force
    ensures RunFailure(cmd, env, files, dirs).Some? && KeepsProject(RunFailure(cmd, env, files, dirs).value)
  {
    if FetchFailure(cmd, env, files, dirs).None? {
      FetchedFilesFacts(cmd, env, files, dirs);
    }
  }

  /** The working directory after `setup_project`: the old `replay` tree replaced by the two rendered files. */
  function SetUp(files: map<Path, Bytes>, toml: Bytes, lib: Bytes): map<Path, Bytes>
  {
    FilesOutside(files, Project)[CargoToml := toml][LibRs := lib]
  }

  /** `setup_project` leaves a file directly in the working directory as it was, unless it is named `replay`. */
  lemma SetUpOutside(files: map<Path, Bytes>, toml: Bytes, lib: Bytes, name: string)
    requires name != "replay"
    ensures [name] in SetUp(files, toml, lib) <==> [name] in files
    ensures [name] in files ==> SetUp(files, toml, lib)[[name]] == files[[name]]
  {
    assert !(Project <= [name]) by {
      assert Project[0] == "replay";
    }
    assert [name] != CargoToml && [name] != LibRs;
  }

  /**
   * Setting up the project and then moving both artifacts into it and
   * writing the lockfile leaves each artifact, with its bytes, inside
   * `replay` and nowhere in the working directory, beside the three files the
   * run writes.
   */
  lemma MovedIntoProject(fetched: map<Path, Bytes>, block: string, snap: string, toml: Bytes, lib: Bytes, lock: Bytes)
    requires |block| > 0 && |snap| > 0 && block[0] == 'b' && snap[0] == 's'
    requires [block] in fetched && [snap] in fetched
    ensures [snap] in SetUp(fetched, toml, lib)
    ensures [block] in Moved(SetUp(fetched, toml, lib), [snap], Project + [snap])
    ensures var files := Moved(Moved(SetUp(fetched, toml, lib), [snap], Project + [snap]), [block], Project + [block])[CargoLock := lock];
      CargoToml in files && files[CargoToml] == toml && LibRs in files && files[LibRs] == lib &&
      CargoLock in files && files[CargoLock] == lock &&
      Project + [block] in files && files[Project + [block]] == fetched[[block]] &&
      Project + [snap] in files && files[Project + [snap]] == fetched[[snap]] &&
      [block] !in files && [snap] !in files &&
      Below(files.Keys, Project) == {CargoToml, LibRs, CargoLock, Project + [block], Project + [snap]}
  {
    assert block != "replay" && snap != "replay" by {
      assert "replay"[0] == 'r';
    }
    SetUpOutside(fetched, toml, lib, block);
    SetUpOutside(fetched, toml, lib, snap);
    assert block != "Cargo.toml" && block != "Cargo.lock" && snap != "Cargo.toml" && snap != "Cargo.lock" by {
      assert "Cargo.toml"[0] == 'C' && "Cargo.lock"[0] == 'C';
    }
    assert Project + [block] != Project + [snap] by {
      assert (Project + [block])[1] == block && (Project + [snap])[1] == snap;
    }
    var files := Moved(Moved(SetUp(fetched, toml, lib), [snap], Project + [snap]), [block], Project + [block])[CargoLock := lock];
    forall q | q in files && Project <= q
      ensures q in {CargoToml, LibRs, CargoLock, Project + [block], Project + [snap]}
    {
    }
    assert Project <= Project + [block] && Project <= Project + [snap];
  }

  /** The artifacts fetched, moved into a freshly set-up project, with the lockfile beside them, make up the finished project. */
  lemma AssembledFromSteps(cmd: Cmd, env: Env, before: map<Path, Bytes>, fetched: map<Path, Bytes>, dirsFetched: set<Path>,
                           toml: Bytes, lib: Bytes, lock: Bytes, files: map<Path, Bytes>, dirs: set<Path>)
    requires ArtifactsFetched(cmd, env, before, fetched) && WellFormed(fetched, dirsFetched)
    requires [BlockFileName(Target(cmd))] in fetched && [SnapFileName(ParentOf(cmd, env.node))] in fetched
    requires env.renderCargoToml(cmd.runtimeName, cmd.sourceRepo, cmd.sourceRev) == Some(toml)
    requires env.renderLibRs([SnapFileName(ParentOf(cmd, env.node))], [BlockFileName(Target(cmd))]) == Some(lib)
    requires env.httpGet(LockfileUrl(cmd)) == Some(lock)
    requires var block, snap := BlockFileName(Target(cmd)), SnapFileName(ParentOf(cmd, env.node));
      [snap] in SetUp(fetched, toml, lib) && [block] in Moved(SetUp(fetched, toml, lib), [snap], Project + [snap]) &&
      files == Moved(Moved(SetUp(fetched, toml, lib), [snap], Project + [snap]), [block], Project + [block])[CargoLock := lock]
    requires dirs == DirsOutside(dirsFetched, Project) + {Project, SrcDir}
    ensures Assembled(cmd, env, before, files, dirs)
  {
    var block, snap := BlockFileName(Target(cmd)), SnapFileName(ParentOf(cmd, env.node));
    assert block[0] == 'b' && snap[0] == 's';
    MovedIntoProject(fetched, block, snap, toml, lib, lock);
    assert Named([block]) && Named([snap]);
    assert [block] != Project && [snap] != Project && [block] != SrcDir && [snap] != SrcDir;
    assert Project <= SrcDir;
  }

  /** Nothing outside `replay` changes in the install stage but the two artifacts, whichever step fails. */
  lemma InstalledOutside(cmd: Cmd, env: Env, files: map<Path, Bytes>, dirs: set<Path>)
    requires ParentKnown(cmd, env.node)
    ensures FilesOutside(InstalledFiles(cmd, env, files, dirs) - CacheFiles(cmd, env.node), Project) ==
            FilesOutside(files - CacheFiles(cmd, env.node), Project)
    ensures DirsOutside(InstalledDirs(cmd, env, files, dirs), Project) == DirsOutside(dirs, Project)
  {
    var names := CacheFiles(cmd, env.node);
    var block, snap := [BlockFileName(Target(cmd))], [SnapFileName(ParentOf(cmd, env.node))];
    CacheNamesApart(Target(cmd), ParentOf(cmd, env.node));
    var toml := env.renderCargoToml(cmd.runtimeName, cmd.sourceRepo, cmd.sourceRev);
    var lib := env.renderLibRs(snap, block);
    var lock := env.httpGet(LockfileUrl(cmd));
    if !((Project in files || Project in dirs) && (!cmd.force || Project !in dirs)) {
      assert Project <= SrcDir && Project <= CargoToml && Project <= LibRs && Project <= CargoLock;
      DirsOutsideAdded(dirs, Project, {Project});
      DirsOutsideAdded(dirs, Project, {Project, SrcDir});
      OutsideTwice(files, Project, names);
      if toml.Some? {
        OutsideUpdate(FilesOutside(files, Project), Project, names, CargoToml, toml.value);
        if lib.Some? {
          var setUp := SetUp(files, toml.value, lib.value);
          OutsideUpdate(FilesOutside(files, Project)[CargoToml := toml.value], Project, names, LibRs, lib.value);
          if snap in setUp {
            var snapMoved := Moved(setUp, snap, Project + snap);
            OutsideMoved(setUp, Project, names, snap, Project + snap);
            if block in snapMoved {
              var bothMoved := Moved(snapMoved, block, Project + block);
              OutsideMoved(snapMoved, Project, names, block, Project + block);
              if lock.Some? {
                OutsideUpdate(bothMoved, Project, names, CargoLock, lock.value);
              }
            }
          }
        }
      }
    }
  }

  /** An install stage that fails nowhere, started from freshly fetched artifacts, leaves the finished project. */
  lemma InstalledAssembled(cmd: Cmd, env: Env, before: map<Path, Bytes>, files: map<Path, Bytes>, dirs: set<Path>)
    requires ParentKnown(cmd, env.node) && WellFormed(files, dirs) && ArtifactsFetched(cmd, env, before, files)
    requires InstallFailure(cmd, env, files, dirs).None?
    ensures Assembled(cmd, env, before, InstalledFiles(cmd, env, files, dirs), InstalledDirs(cmd, env, files, dirs))
  {
    var block, snap := BlockFileName(Target(cmd)), SnapFileName(ParentOf(cmd, env.node));
    CacheNamesApart(Target(cmd), ParentOf(cmd, env.node));
    InstallFailureOnceSetUp(cmd, env, files, dirs);
    var toml := env.renderCargoToml(cmd.runtimeName, cmd.sourceRepo, cmd.sourceRev).value;
    var lib := env.renderLibRs([snap], [block]).value;
    var lock := env.httpGet(LockfileUrl(cmd)).value;
    SetUpOutside(files, toml, lib, block);
    SetUpOutside(files, toml, lib, snap);
    AssembledFromSteps(cmd, env, before, files, dirs, toml, lib, lock,
                       InstalledFiles(cmd, env, files, dirs), InstalledDirs(cmd, env, files, dirs));
  }

  /**
   * What the install stage's outcome implies: the lockfile request is its
   * only call; `replay` without `--force` is exactly the refusal; a refusal
   * changes nothing; nothing outside `replay` changes but the two artifacts;
   * and when no step fails the project is finished.
   */
  lemma InstallOutcome(cmd: Cmd, env: Env, before: map<Path, Bytes>, files: map<Path, Bytes>, dirs: set<Path>)
    requires ParentKnown(cmd, env.node) && WellFormed(files, dirs) && ArtifactsFetched(cmd, env, before, files)
    ensures var failure, effects := InstallFailure(cmd, env, files, dirs), InstallEffects(cmd, env, files, dirs);
      var after, afterDirs := InstalledFiles(cmd, env, files, dirs), InstalledDirs(cmd, env, files, dirs);
      effects <= [HttpGet(LockfileUrl(cmd))] &&
      ((Project in files || Project in dirs) && !cmd.force <==> failure == Some(ProjectExists)) &&
      (failure.Some? && KeepsProject(failure.value) ==> effects == [] && after == files && afterDirs == dirs) &&
      FilesOutside(after - CacheFiles(cmd, env.node), Project) == FilesOutside(files - CacheFiles(cmd, env.node), Project) &&
      DirsOutside(afterDirs, Project) == DirsOutside(dirs, Project) &&
      (failure.None? ==> effects == [HttpGet(LockfileUrl(cmd))] && Assembled(cmd, env, before, after, afterDirs))
  {
    InstalledOutside(cmd, env, files, dirs);
    if InstallFailure(cmd, env, files, dirs).None? {
      InstalledAssembled(cmd, env, before, files, dirs);
    }
  }

  /** In the tree `setup_project` leaves, `src` is the one directory inside `replay`. */
  lemma OnlySrcInProject(dirs: set<Path>, name: string)
    requires Below(dirs, Project) == {Project, SrcDir}
    requires name != "src"
    ensures Project + [name] !in dirs
  {
    assert Project + [name] != SrcDir by {
      assert (Project + [name])[1] == name && SrcDir[1] == "src";
    }
    assert Project <= Project + [name] && Project + [name] != Project;
    assert Project + [name] !in Below(dirs, Project);
  }

  /**
   * The last steps of `Cmd::run`, inside the `replay` tree `setup_project`
   * left: move the snapshot and then the raw block into it, then fetch the
   * lockfile, stopping at the first failure.  A move fails only when its
   * artifact is not a file.
   */
  method MoveAndLock(cmd: Cmd, env: Env, fs: FileSystem, snap: Path, rawBlock: Path) returns (r: Result<()>, effects: seq<Effect>)
    requires fs.Valid()
    requires Below(fs.dirs, Project) == {Project, SrcDir}
    requires |snap| == 1 && |rawBlock| == 1 && snap != rawBlock && snap[0] != "src" && rawBlock[0] != "src"
    modifies fs
    ensures fs.Valid()
    ensures fs.dirs == old(fs.dirs)
    ensures var moved := snap in old(fs.files) && rawBlock in old(fs.files);
      var lock := env.httpGet(LockfileUrl(cmd));
      (r.Ok? <==> moved && lock.Some?) &&
      (r.Err? ==> r.error == if moved then HttpFailed else IoFailed) &&
      effects == (if moved then [HttpGet(LockfileUrl(cmd))] else [])
    ensures fs.files ==
      if snap !in old(fs.files) then old(fs.files)
      else
        var snapMoved := Moved(old(fs.files), snap, Project + snap);
        if rawBlock !in old(fs.files) then snapMoved
        else
          var bothMoved := Moved(snapMoved, rawBlock, Project + rawBlock);
          if env.httpGet(LockfileUrl(cmd)).None? then bothMoved
          else bothMoved[CargoLock := env.httpGet(LockfileUrl(cmd)).value]
    // apart from the two artifacts, nothing outside `replay` changes
    ensures FilesOutside(fs.files - {snap, rawBlock}, Project) == FilesOutside(old(fs.files) - {snap, rawBlock}, Project)
  {
    // `replay` is a directory holding only the directory `src`
    assert Project in Below(fs.dirs, Project);
    OnlySrcInProject(fs.dirs, snap[0]);
    OnlySrcInProject(fs.dirs, rawBlock[0]);
    OnlySrcInProject(fs.dirs, "Cargo.lock");
    var snapPath := Project + [FileName(snap)];
    assert snapPath == Project + snap;
    ghost var names := {snap, rawBlock};
    ghost var filesBefore := fs.files;
    var moved := fs.Rename(snap, snapPath);
    if moved {
      OutsideMoved(filesBefore, Project, names, snap, snapPath);
      var rawBlockPath := Project + [FileName(rawBlock)];
      assert rawBlockPath == Project + rawBlock;
      ghost var filesSnapMoved := fs.files;
      moved := fs.Rename(rawBlock, rawBlockPath);
      if moved {
        OutsideMoved(filesSnapMoved, Project, names, rawBlock, rawBlockPath);
      }
    }
    if moved {
      assert Project + ["Cargo.lock"] == CargoLock;
      ghost var filesMoved := fs.files;
      r, effects := DownloadLockfile(cmd, env, fs, Project);
      if r.Ok? {
        OutsideUpdate(filesMoved, Project, names, CargoLock, env.httpGet(LockfileUrl(cmd)).value);
      }
    } else {
      r, effects := Err(IoFailed), [];
    }
  }

  /**
   * The second half of `Cmd::run`, after `create_snap`: set up the project,
   * move the snapshot and then the raw block into it and fetch the lockfile,
   * stopping at the first failure.  `before` is the working directory the
   * run started from.
   */
  method InstallArtifacts(cmd: Cmd, env: Env, fs: FileSystem, fetched: Artifacts, ghost before: map<Path, Bytes>)
    returns (r: Result<()>, effects: seq<Effect>)
    requires fs.Valid()
    requires ParentKnown(cmd, env.node) && fetched.parent == ParentOf(cmd, env.node)
    requires fetched.rawBlock == [BlockFileName(Target(cmd))] && fetched.snap == [SnapFileName(fetched.parent)]
    requires ArtifactsFetched(cmd, env, before, fs.files)
    modifies fs
    ensures fs.Valid()
    // the lockfile request is the one call, and only the last step makes it
    ensures effects <= [HttpGet(LockfileUrl(cmd))]
    ensures r.Err? && KeepsProject(r.error) ==> effects == [] && fs.files == old(fs.files) && fs.dirs == old(fs.dirs)
    // nothing outside `replay` changes but the two artifacts
    ensures FilesOutside(fs.files - CacheFiles(cmd, env.node), Project) == FilesOutside(old(fs.files) - CacheFiles(cmd, env.node), Project)
    ensures DirsOutside(fs.dirs, Project) == DirsOutside(old(fs.dirs), Project)
    ensures r.Ok? ==> effects == [HttpGet(LockfileUrl(cmd))] && Assembled(cmd, env, before, fs.files, fs.dirs)
    // the outcome: which step fails first, with which error, and whether the lockfile is requested
    ensures r.Err? <==> InstallFailure(cmd, env, old(fs.files), old(fs.dirs)).Some?
    ensures r.Err? ==> r.error == InstallFailure(cmd, env, old(fs.files), old(fs.dirs)).value
    ensures effects == InstallEffects(cmd, env, old(fs.files), old(fs.dirs))
    ensures old(fs.Exists(Project)) && !cmd.force <==> r == Err(ProjectExists)
    // the tree it leaves, whichever step failed: nothing done is rolled back
    ensures fs.files == InstalledFiles(cmd, env, old(fs.files), old(fs.dirs))
    ensures fs.dirs == InstalledDirs(cmd, env, old(fs.files), old(fs.dirs))
  {
    ghost var filesFetched, dirsFetched := fs.files, fs.dirs;
    InstallOutcome(cmd, env, before, filesFetched, dirsFetched);
    var project := SetupProject(cmd, env, fs, fetched.snap, fetched.rawBlock);
    if project.Err? {
      assert InstallFailure(cmd, env, filesFetched, dirsFetched) == Some(project.error);
      r, effects := Err(project.error), [];
    } else {
      r, effects := InstallIntoProject(cmd, env, fs, fetched, filesFetched, dirsFetched);
    }
  }

  /**
   * The install stage once `setup_project` has succeeded on the tree `files`
   * and `dirs`: move the snapshot and then the raw block into `replay` and
   * fetch the lockfile.  Its outcome is the install stage's.
   */
  method InstallIntoProject(cmd: Cmd, env: Env, fs: FileSystem, fetched: Artifacts, ghost files: map<Path, Bytes>, ghost dirs: set<Path>)
    returns (r: Result<()>, effects: seq<Effect>)
    requires fs.Valid()
    requires ParentKnown(cmd, env.node) && fetched.parent == ParentOf(cmd, env.node)
    requires fetched.rawBlock == [BlockFileName(Target(cmd))] && fetched.snap == [SnapFileName(fetched.parent)]
    requires (Project !in files && Project !in dirs) || (cmd.force && Project in dirs)
    requires env.renderCargoToml(cmd.runtimeName, cmd.sourceRepo, cmd.sourceRev).Some?
    requires env.renderLibRs(fetched.snap, fetched.rawBlock).Some?
    requires fs.files == SetUp(files, env.renderCargoToml(cmd.runtimeName, cmd.sourceRepo, cmd.sourceRev).value,
                                env.renderLibRs(fetched.snap, fetched.rawBlock).value)
    requires fs.dirs == DirsOutside(dirs, Project) + {Project, SrcDir}
    modifies fs
    ensures fs.Valid()
    ensures r.Err? <==> InstallFailure(cmd, env, files, dirs).Some?
    ensures r.Err? ==> r.error == InstallFailure(cmd, env, files, dirs).value
    ensures effects == InstallEffects(cmd, env, files, dirs)
    ensures fs.files == InstalledFiles(cmd, env, files, dirs)
    ensures fs.dirs == InstalledDirs(cmd, env, files, dirs)
  {
    ghost var block, snap := BlockFileName(Target(cmd)), SnapFileName(fetched.parent);
    CacheNamesApart(Target(cmd), fetched.parent);
    InstallFailureOnceSetUp(cmd, env, files, dirs);
    ghost var toml := env.renderCargoToml(cmd.runtimeName, cmd.sourceRepo, cmd.sourceRev).value;
    ghost var lib := env.renderLibRs(fetched.snap, fetched.rawBlock).value;
    SetUpOutside(files, toml, lib, snap);
    SetUpOutside(files, toml, lib, block);
    assert Below(fs.dirs, Project) == {Project, SrcDir} by {
      assert Project <= SrcDir;
    }
    r, effects := MoveAndLock(cmd, env, fs, fetched.snap, fetched.rawBlock);
  }

  /**
   * `Cmd::run`: fetch both artifacts, set up the project, move the snapshot
   * and the raw block into it and fetch the lockfile, stopping at the first
   * failure.
   */
  method Run(cmd: Cmd, env: Env, fs: FileSystem) returns (r: Result<()>, effects: seq<Effect>)
    requires fs.Valid()
    modifies fs
    ensures fs.Valid()
    // validation comes first: a rejected command neither calls out nor touches a file
    ensures ValidateArgs(cmd).Err? ==>
      r == ValidateArgs(cmd) && effects == [] && fs.files == old(fs.files) && fs.dirs == old(fs.dirs)
    ensures effects != [] ==> ValidateArgs(cmd).Ok? && effects[0] == Connect(cmd.rpc)
    // the snapshot is always of the parent, never of the target itself
    ensures forall e | e in effects && e.SnapshotTool? :: SnapshotsParent(cmd, env.node, e)
    // cache hits do no external work for that artifact
    ensures RawBlockCached(cmd, old(fs.files), old(fs.dirs)) ==> forall e | e in effects :: !e.GetHeader? && !e.GetBody?
    ensures SnapCached(cmd, env.node, old(fs.files), old(fs.dirs)) ==> forall e | e in effects :: !e.SnapshotTool?
    // the calls come in the fixed order, and the run stops at the first failure
    ensures effects <= Plan(cmd, env.node, old(fs.files), old(fs.dirs))
    // a file that is not cached is fetched
    ensures ReachesDownload(cmd, env.node) && !RawBlockCached(cmd, old(fs.files), old(fs.dirs)) ==> GetHeader(Target(cmd)) in effects
    ensures ReachesSnapshot(cmd, env.node, old(fs.files), old(fs.dirs)) && !SnapCached(cmd, env.node, old(fs.files), old(fs.dirs)) ==>
      SnapshotCall(cmd, env.node) in effects
    // a failure before the project is touched makes no later call and changes nothing but the cache files
    ensures r.Err? && KeepsProject(r.error) ==>
      effects <= FetchPlan(cmd, env.node, old(fs.files), old(fs.dirs)) &&
      fs.files - CacheFiles(cmd, env.node) == old(fs.files) - CacheFiles(cmd, env.node) && fs.dirs == old(fs.dirs)
    // whatever happens, nothing outside `replay` changes but the cache files
    ensures FilesOutside(fs.files - CacheFiles(cmd, env.node), Project) == FilesOutside(old(fs.files) - CacheFiles(cmd, env.node), Project)
    ensures DirsOutside(fs.dirs, Project) == DirsOutside(old(fs.dirs), Project)
    ensures r.Ok? ==> effects == Plan(cmd, env.node, old(fs.files), old(fs.dirs)) && Assembled(cmd, env, old(fs.files), fs.files, fs.dirs)
    // the outcome: the first step that fails, its error, and the calls made up to and including it
    ensures r.Err? <==> RunFailure(cmd, env, old(fs.files), old(fs.dirs)).Some?
    ensures r.Err? ==> r.error == RunFailure(cmd, env, old(fs.files), old(fs.dirs)).value
    ensures effects == RunEffects(cmd, env, old(fs.files), old(fs.dirs))
    // a failure before `setup_project` changes anything keeps every file that was there, and adds only fetched cache files
    ensures r.Err? && KeepsProject(r.error) ==>
      fs.files == FetchedFiles(cmd, env, old(fs.files), old(fs.dirs)) && fs.dirs == old(fs.dirs) &&
      forall p | p in old(fs.files) :: p in fs.files && fs.files[p] == old(fs.files)[p]
    // without `--force` an existing `replay` is never touched
    ensures old(fs.Exists(Project)) && !cmd.force ==> r.Err? && KeepsProject(r.error)
    // the tree it leaves, whichever step failed
    ensures fs.files == RunFiles(cmd, env, old(fs.files), old(fs.dirs))
    ensures fs.dirs == RunDirs(cmd, env, old(fs.files), old(fs.dirs))
  {
    ghost var files0, dirs0 := fs.files, fs.dirs;
    var fetched;
    fetched, effects := FetchArtifacts(cmd, env, fs);
    if fetched.Err? {
      r := Err(fetched.error);
      assert RunFailure(cmd, env, files0, dirs0) == Some(fetched.error);
      assert effects == RunEffects(cmd, env, files0, dirs0);
    } else {
      ghost var filesFetched := fs.files;
      assert filesFetched == FetchedFiles(cmd, env, files0, dirs0) && fs.dirs == dirs0;
      assert RunFailure(cmd, env, files0, dirs0) == InstallFailure(cmd, env, filesFetched, dirs0);
      var installEffects;
      r, installEffects := InstallArtifacts(cmd, env, fs, fetched.value, files0);
      effects := effects + installEffects;
      assert effects == RunEffects(cmd, env, files0, dirs0);
    }
    FetchedFilesFacts(cmd, env, files0, dirs0);
    RunEffectsFollowPlan(cmd, env, files0, dirs0);
    if old(fs.Exists(Project)) && !cmd.force {
      NoForceKeepsProject(cmd, env, files0, dirs0);
    }
  }
}
